=== FILE: README.md ===
# mock-mart storefront core, modelled in Dafny

mock-mart is a small Next.js storefront on a MySQL database accessed through Drizzle. This project models the logic that sits on that database, and proves what that logic promises:

- the session-cookie authentication service (`signUp`, `signIn`, `signOut`, `getCurrentUser`);
- the product listing and rating aggregation service;
- the comment, user and administrative product services;
- the table schema, with its unique keys, defaults and cascading deletes;
- the NextAuth credentials `authorize` function and the `jwt`/`session` callbacks;
- the signup, signin and product-listing route handlers;
- two pure algorithms embedded in UI files: the product carousel's page-index arithmetic, and the category page's group-by-category `reduce`.

The database is an immutable `Store` record (`schema.dfy`). It holds one sequence of rows per table plus the next value of each auto-increment column.

- **Calls as transitions.** Every service call is a pure function from the store and the call's inputs to a `Step`: the value returned or the error thrown, together with the store afterwards.
- **Store invariant.** `Schema.Valid` is what the database itself guarantees: unique primary keys, a unique `users.email`, counters ahead of every id, and foreign keys that name existing rows. Each transition keeps it.
- **Constraint enforcement.** The store rejects inserts that violate a unique key or a foreign key, as InnoDB does. Deletes cascade where the schema declares `on delete cascade`.
- **Errors.** Errors thrown by the services carry the exact `message` a `catch` block sees, so the routes' own message comparisons are exact. Database errors carry only a fixed text, and faults other than constraint violations are not modelled (see Left out).

Everything the code gets from outside is a parameter:

- bcrypt's `hash` and `compare` are the two functions of `AuthService.Crypto`;
- the generated salt, the UUID session token and the current time (integer seconds) are arguments.

The only thing assumed of the hash is `AuthService.Sound`: a password verifies against its own hash. That assumption is used only where a lemma says so.

The model keeps several behaviours that are faithful to the code but surprising:

- `signUp` returns the stored row, password hash included, and the signup route sends it to the client.
- `createUser` stores the password it is given as is, with no hashing.
- Comments are returned in no particular order.
- A failed sign-in answers 500 rather than 401, because the route looks for a message that `signIn` never throws (see Findings).
- An expired session is not deleted by `getCurrentUser`.
- A session expiring exactly at `now` is still accepted.

File layout, one module per source component:

- `common.dfy`: `Option`, `Result`, `Error`, `Truthy` and sequence helpers (`Filter`, `DistinctInOrder`, key uniqueness).
- `text.dfy`: what `\s` matches, UTF-16 `length`, `LIKE '%q%'` as substring containment, and integer `toString`.
- `schema.dfy`: the tables, the store, and its primitive inserts and deletes.
- The services: `user_service.dfy`, `auth_service.dfy`, `product_service.dfy`, `products.dfy`, `comment_service.dfy`.
- `next_auth.dfy`: `src/lib/auth.ts`.
- `http.dfy`, `signup_route.dfy`, `signin_route.dfy`, `products_route.dfy`: the route handlers.
- `carousel.dfy` and `category_groups.dfy`: the two UI algorithms.

## Model

| member | source | states |
|---|---|---|
| Schema.InsertUser | src/db/schema.ts:14-22 | A second row with an existing email is refused with a duplicate-key error. Otherwise exactly one row is appended, with the next auto-increment id, the given fields and role `"user"`. No other table changes, and a valid store stays valid. |
| Schema.InsertSession | src/db/schema.ts:24-29 | A token already in use is refused by the primary key. An owner that does not exist is refused by the foreign key. Otherwise exactly that session row is appended. Validity is kept. |
| Schema.InsertComment | src/db/schema.ts:31-38 | An unknown product or user is refused by a foreign key. Otherwise the row with the next serial id is appended. Validity is kept. |
| Schema.InsertProduct | src/db/schema.ts:3-12 | Appends the row with the next auto-increment id. No other table changes. Validity is kept. |
| Schema.DeleteSession | src/db/schema.ts:24-29 | Removes exactly the sessions with that token. Deleting a token that is not present leaves the store unchanged. Validity is kept. |
| Schema.DeleteUser | src/db/schema.ts:24-47 | The cascades remove the user together with exactly that user's sessions, comments and ratings. Products are untouched. Validity is kept. |
| Schema.DeleteProductCascade | src/db/schema.ts:31-47 | The cascades remove the product together with exactly its comments and ratings. Users and sessions are untouched. Validity is kept. |
| Schema.EmailIdentifiesUser | src/db/schema.ts:17 | In a valid store two users with the same email are the same user. |
| Schema.TokenIdentifiesSession | src/db/schema.ts:25 | In a valid store two sessions with the same id are the same session. |
| Schema.IdIdentifiesUser | src/db/schema.ts:15 | In a valid store two users with the same id are the same user. |
| Schema.EmptyStore | src/db/schema.ts:3-47 | A database with no rows satisfies every constraint the schema declares. |
| UserService.GetUserByEmail | src/services/userService.ts:13-16 | Null exactly when no user has the email. Otherwise the result is a stored user with that email, and in a valid store the only one. |
| UserService.CreateUser | src/services/userService.ts:18-22 | Fails exactly when the email is taken, by the store's unique index, leaving the store unchanged. Otherwise appends one row holding the password unhashed, with the default role, and returns the row its email now looks up. |
| AuthService.WithoutPassword | src/services/authService.ts:95 | The public record has the row's id, email, name and role. Together with the password it gives back the row, so only the password is removed. |
| AuthService.WithoutPasswordForgetsPassword | src/services/authService.ts:67 | Two rows that differ only in their password give the same public record. |
| AuthService.SignUp | src/services/authService.ts:30-46 | A taken email throws 'User with this email already exists' and inserts nothing. Otherwise exactly one user is appended, storing `hash(password, salt)`. The stored row is returned, hash included. |
| AuthService.SignIn | src/services/authService.ts:48-72 | An unknown email and a password that fails to verify throw the same 'Invalid email or password' and change nothing. On success exactly one session is appended: the fresh token, the user's id, and expiry `now` plus 7 days. The result is the user without password and that token. With matching credentials it succeeds exactly when the token is unused. Validity is kept. |
| AuthService.SignOut | src/services/authService.ts:74-76 | Removes only the session with that token. A token that is not present leaves the store unchanged. |
| AuthService.GetCurrentUser | src/services/authService.ts:78-97 | Null for a missing or empty cookie. Otherwise, in a valid store, the owner without password exactly when a session with that token has `now <= expiresAt`, so a session expiring exactly now still counts. It returns no store, so it changes nothing. |
| AuthService.SignUpThenSignIn | src/services/authService.ts:30-72 | With a sound hash and an unused token, a fresh registration signs in with the same password and gets back the registered user. |
| AuthService.SignInThenCurrentUser | src/services/authService.ts:48-97 | After a successful sign-in, the token yields the signed-in user at every time up to the expiry, and nobody after it. |
| AuthService.SignOutThenCurrentUser | src/services/authService.ts:74-97 | After sign-out the token yields no user. |
| ProductService.GetProductRating | src/services/productService.ts:18-26 | `count` is the number of rating rows of the product, 0 exactly when there are none. The rate is 0 with no rows, and otherwise rate times count is the sum of the ratings. |
| ProductService.RateWithinBounds | src/services/productService.ts:18-26 | The mean lies between any lower and upper bound that every rating of the product respects. |
| ProductService.SumRatingsBounds | src/services/productService.ts:19-22 | Bounds on each rating bound the sum by count times the bound. |
| ProductService.View | src/services/productService.ts:32-40 | The view keeps every column of the row: mapping `title` back to `name` gives back the row. It adds the row's rating aggregate. |
| ProductService.Views | src/services/productService.ts:30-41 | One view record per row, in row order. Each record is that row's mapping, with `name` as `title` and the rating aggregate attached. |
| ProductService.GetAllProducts | src/services/productService.ts:28-43 | One record per product row, in row order: `name` becomes `title`, the other columns are copied, and the row's rating aggregate is attached. |
| ProductService.GetProductsByCategory | src/services/productService.ts:45-60 | Every listed product has exactly the given category, and every product row with that category is listed. |
| ProductService.ByCategoryIsFilteredListing | src/services/productService.ts:45-60 | The category listing equals the full listing filtered on category, order included. |
| ProductService.SearchProducts | src/services/productService.ts:62-80 | Every listed title contains the query as a substring, and every product whose name contains it is listed. |
| ProductService.SearchIsFilteredListing | src/services/productService.ts:62-80 | The search listing equals the full listing filtered on the title containing the query, order included. |
| ProductService.EmptySearchListsAll | src/services/productService.ts:62-66 | `LIKE '%%'` matches every name, so an empty query lists every product. |
| ProductService.ViewsCommuteWithFilter | src/services/productService.ts:45-80 | Filtering rows and then mapping them to views is the same as mapping all rows and then filtering the views on the same field. |
| ProductService.GetAllCategories | src/services/productService.ts:82-87 | A category is listed exactly when some product has it. No category is listed twice. |
| ProductService.GetProduct | src/services/productService.ts:89-103 | Null exactly when no row has the id. Otherwise the result is the view of a row with that id, rating attached. |
| CommentService.GetCommentsByProductId | src/services/commentService.ts:13-22 | A comment is listed exactly when it is stored with that product id, and as many times as it is stored. No order is promised. |
| CommentService.GetCommentCountByProductId | src/services/commentService.ts:41-44 | Equals the length of the listing, which is the number of stored comments on the product, counted with repeats. It is 0 exactly when the product has no comments. |
| CommentService.AddComment | src/services/commentService.ts:24-39 | A second comment by the same user on the same product throws 'User has already commented on this product' and inserts nothing. Otherwise it succeeds exactly when product and user exist, and then appends and returns exactly one comment with the given product, user and content, with no check on the content. It keeps one comment per (product, user), and keeps validity. |
| CommentService.AddKeepsOnePerAuthor | src/services/commentService.ts:26-31 | Appending a comment whose (product, user) pair is new keeps at most one comment per pair. |
| CommentService.AddThenList | src/services/commentService.ts:24-44 | A comment just added is listed for its product, and the product's count grows by one. |
| Products.GetProducts | src/services/products.ts:8-10 | Every product row, unchanged, in table order. |
| Products.StorefrontListingIsRowListing | src/services/products.ts:8-10 | The storefront listing of src/services/productService.ts:28-43, mapped back from views to rows, is exactly this listing, in the same order. |
| Products.GetProduct | src/services/products.ts:12-18 | Undefined exactly when no row has the id. Otherwise a stored row with that id, and in a valid store the only one. |
| Schema.ProductIdIdentifiesRow | src/db/schema.ts:4 | In a valid store two product rows with the same id are the same row. |
| Products.StorefrontLookupIsRowLookup | src/services/productService.ts:89-92 | The storefront lookup is the administrative row lookup followed by the view mapping. |
| Products.CreateProduct | src/services/products.ts:20-23 | Appends exactly one row with the supplied fields, under the auto-assigned id that it reports. No other table changes. |
| Products.CreateThenGet | src/services/products.ts:12-23 | In a valid store, looking up the reported id returns the created row. |
| Products.ApplyPatch | src/services/products.ts:25-31 | Each column listed in the patch takes the patch's value. Every other column, and the id, keeps its own. |
| Products.UpdateProduct | src/services/products.ts:25-31 | Rows with the id are patched. Every other row, and every other table, is unchanged. Validity is kept. |
| Products.UpdateUnknownIdIsNoop | src/services/products.ts:25-31 | Updating an id that no row has changes nothing. |
| Products.UpdateIdempotent | src/services/products.ts:25-31 | Applying the same update twice is the same as applying it once. |
| Products.DeleteProduct | src/services/products.ts:33-38 | Removes exactly the row with the id, and through the cascades its comments and ratings. Users and sessions are untouched. In a valid store an unknown id changes nothing. |
| NextAuth.Authorize | src/lib/auth.ts:14-35 | Null for missing or empty credentials, for an email no user has, and for a password that does not verify. Otherwise the user's id as decimal text, with email, name and role and no password. In a valid store it succeeds exactly when a user with the email has a verifying password. |
| NextAuth.AuthorizedIdIsUserId | src/lib/auth.ts:29-34 | The id `authorize` reports is decimal text that parses back to the user's numeric id. |
| NextAuth.Jwt | src/lib/auth.ts:45-52 | With a user, the token gains `id` and `role` from the user and keeps every other property. Without a user the token is returned unchanged. |
| NextAuth.SessionCallback | src/lib/auth.ts:53-66 | With a session user, the user's `id` and `role` become the token's (undefined when the token lacks them), and every other user and session property is kept. An anonymous session is returned unchanged. |
| NextAuth.AuthorizeJwtSession | src/lib/auth.ts:14-66 | After `authorize` succeeds, then `jwt` with the user, then `jwt` without one, the session user carries the stored user's id as decimal text and the stored user's role. |
| SignupRoute.EmailPattern | src/app/api/auth/signup/route.ts:17-18 | The regex `^[^\s@]+@[^\s@]+\.[^\s@]+$`: some placement of the `@` and the `.` splits the string into three non-empty runs free of `\s` and `@`. Anything it accepts is at least 5 characters long. |
| SignupRoute.EmailPatternShape | src/app/api/auth/signup/route.ts:17-18 | The email pattern accepts exactly the strings that have no whitespace, exactly one `@` and not at the start, and a `.` after it that is neither right after the `@` nor last. |
| SignupRoute.DoubleDotAccepted | src/app/api/auth/signup/route.ts:17-18 | The shape check accepts a domain with two consecutive dots. |
| SignupRoute.NoDotAfterAtRefused | src/app/api/auth/signup/route.ts:17-18 | Any email with no `.` after its `@` is refused. |
| SignupRoute.NoAtRefused | src/app/api/auth/signup/route.ts:17-18 | Any email without an `@` is refused. |
| SignupRoute.TwoAtsRefused | src/app/api/auth/signup/route.ts:17-18 | Any email with two `@` is refused. |
| SignupRoute.WhitespaceRefused | src/app/api/auth/signup/route.ts:17-18 | Any email containing a `\s` character is refused. |
| SignupRoute.Post | src/app/api/auth/signup/route.ts:4-54 | A body that cannot be parsed, or is `null`, gives 500. Any other body, including a JSON string, number or array that has no fields, goes through the checks. Then, in order, missing fields, a bad email shape and a password shorter than 6 UTF-16 units each give 400 without calling `signUp`. An accepted body gives 409 exactly when the email is taken, and otherwise 200 with the stored row, hash included. Every non-200 answer leaves the store unchanged. |
| SignupRoute.LongPasswordAccepted | src/app/api/auth/signup/route.ts:26-31 | Every password of at least 6 UTF-16 units passes the length check, with a well-formed email and a name. |
| SignupRoute.FiveCharactersWithAstralAccepted | src/app/api/auth/signup/route.ts:26 | A five-character password is accepted when one character lies beyond U+FFFF, because `length` counts it as two units. |
| SignupRoute.ShortPasswordRefused | src/app/api/auth/signup/route.ts:9-31 | Every password shorter than 6 UTF-16 units gets a 400 and leaves the store unchanged, whatever the other fields hold. When the other fields pass and the password is non-empty, the 400 is the password-length one. |
| SigninRoute.SessionCookie | src/app/api/auth/signin/route.ts:27 | The cookie starts with `session_id=`, followed by the token and then the `;` that begins the attributes, so the token is read back from it. |
| SigninRoute.CookieLivesAsLongAsSession | src/app/api/auth/signin/route.ts:27 | The cookie's Max-Age is 604800 seconds, the service's session lifetime. |
| SigninRoute.Handle | src/app/api/auth/signin/route.ts:4-50 | A body that cannot be parsed, or is `null`, gives 500. A missing email or password gives 400, which is also the answer to a JSON value that is not an object. Neither case calls `signIn`. A 200 answer carries a stored user whose password verifies, without the password, and the `session_id` cookie of the session just inserted. The `!sessionId` 401 is reached only with an empty token. |
| SigninRoute.Post | src/app/api/auth/signin/route.ts:19-44 | As written, a 401 is answered only for an empty token. No other non-200 answer changes the store. |
| SigninRoute.UnmatchedMessage | src/app/api/auth/signin/route.ts:39 | No error `signIn` can raise has the message 'Invalid credentials'. |
| SigninRoute.BadCredentialsGive500 | src/app/api/auth/signin/route.ts:37-48 | As written, an unknown email or a wrong password answers 500 'Failed to sign in', with the store unchanged. |
| SigninRoute.PostIntended | src/app/api/auth/signin/route.ts:37-48 | The corrected handler: no non-200 answer changes the store, except the 401 for an empty token. |
| SigninRoute.IntendedBadCredentialsGive401 | src/app/api/auth/signin/route.ts:39-44 | With the service's message matched, an unknown email or a wrong password answers 401 'Invalid email or password', with the store unchanged. |
| SigninRoute.GoodCredentialsGive200 | src/app/api/auth/signin/route.ts:17-36 | A user's email with a verifying password and an unused token answer 200 with the user and the session cookie, in both versions. |
| ProductsRoute.Dispatch | src/app/api/products/route.ts:10-17 | A non-empty category selects the category listing. Otherwise a non-empty query selects the search. Otherwise every product is listed. |
| ProductsRoute.Get | src/app/api/products/route.ts:4-27 | Answers 200. Under a category it lists exactly the products of that category. Under a search it lists exactly the products whose title contains the query. Otherwise it lists everything. |
| ProductsRoute.CategoryWinsOverQuery | src/app/api/products/route.ts:11-12 | With a non-empty category the query makes no difference. |
| ProductsRoute.EmptyParameterIsAbsent | src/app/api/products/route.ts:11-13 | An empty parameter is treated as a missing one. |
| ProductsRoute.GetIsFilteredListing | src/app/api/products/route.ts:10-19 | The answer is always the full listing filtered on what the parameters select. |
| Carousel.NextSlide | src/components/ProductCarousel.tsx:16-22 | Advances one page while that page still starts inside the list, and otherwise wraps to 0. With products present the index stays on a product. With at most 4 products the result is always 0. |
| Carousel.PrevSlide | src/components/ProductCarousel.tsx:24-30 | Goes back one page from index 4 or more. Otherwise it goes to the last full page, `max(0, len - 4)`. An index inside the list stays inside it. With at most 4 products the result is always 0. |
| Carousel.PrevUndoesNext | src/components/ProductCarousel.tsx:16-30 | A forward step that did not wrap is undone by a backward step. |
| Carousel.NextUndoesPrev | src/components/ProductCarousel.tsx:16-30 | A backward step that did not wrap is undone by a forward step. |
| Carousel.PressesStayInBounds | src/components/ProductCarousel.tsx:13-30 | From index 0, every sequence of presses keeps `0 <= index < length`. |
| Carousel.SinglePageStaysAtStart | src/components/ProductCarousel.tsx:13-30 | With at most one page of products, every sequence of presses stays at index 0. |
| Carousel.NextOnlyLandsOnPageStarts | src/components/ProductCarousel.tsx:13-22 | Pressing only next from 0 always lands on a multiple of the page size. |
| CategoryGroups.FindGroup | src/app/categories/page.tsx:32 | Finds the first group with that name, and finds none exactly when no group has it. |
| CategoryGroups.AddToGroup | src/app/categories/page.tsx:32-41 | The product goes to the end of the first group named after its category. If no group has that name, it goes into a new group at the end. Every other group keeps its name and products. The list grows by one exactly when no group had the name. |
| CategoryGroups.GroupByCategory | src/app/categories/page.tsx:31-42 | No group is empty, and no two groups share a name. |
| CategoryGroups.CategoryNames | src/app/categories/page.tsx:35-40 | The distinct categories of the listing, each exactly once. |
| CategoryGroups.Partition | src/app/categories/page.tsx:31-42 | The reference result: for each distinct category in order of first occurrence, a group of that name holding the listing filtered on that category. |
| CategoryGroups.GroupByIsPartition | src/app/categories/page.tsx:31-42 | The `reduce` computes exactly the reference partition. |
| CategoryGroups.CategoryNamesFirstOccurrence | src/app/categories/page.tsx:35-40 | Of two listed categories, the earlier one belongs to a product that comes before every product of the later one. |
| CategoryGroups.GroupNames | src/app/categories/page.tsx:32-40 | The group names are the listing's categories, pairwise distinct. Of two groups, the earlier one's category occurs in the listing before any product of the later one's. |
| CategoryGroups.EachProductInItsGroup | src/app/categories/page.tsx:32-39 | Every product in a group has the group's name as its category, by exact string equality. Every input product is in the group named after its category, and in no other group. |
| CategoryGroups.GroupSizesAddUp | src/app/categories/page.tsx:31-42 | The group sizes add up to the number of products. |
| Text.ContainsIffOccurs | src/services/productService.ts:63-65 | The substring test used for `LIKE '%q%'` holds exactly when `q` occurs at some index of the name. |
| Text.DecimalRoundTrip | src/lib/auth.ts:30 | The decimal text of an integer parses back to it. |
| Text.Utf16Length | src/app/api/auth/signup/route.ts:26 | `length` counts one or two UTF-16 units per character. It equals the character count when every character is in the Basic Multilingual Plane (at most U+FFFF). |

## Left out

- Timestamps are not modelled: `createdAt`, `updatedAt`, `defaultNow` and `onUpdateNow`.
- Calendar arithmetic is not modelled. `setDate(getDate() + 7)` is `now + 7 * 24 * 60 * 60` on an integer clock in seconds, so daylight-saving shifts, local time and MySQL timestamp rounding are not modelled.
- bcrypt and uuid internals are not modelled; the hash, verifier, salt and token are parameters. The bcrypt cost factor and the 60-character hash length are not modelled, and neither is the `varchar(50)` password column they would overflow.
- Column lengths and value ranges are not modelled: `varchar` limits, the `decimal(10, 2)` range and `int` widths. Price is kept in whole cents, so `Number(row.price)` and floating point are not modelled.
- ProductService.GetProductRating: the mean is an exact real. MySQL's 4-digit `AVG` decimal and `Number()` conversion are not modelled.
- ProductService.SearchProducts: `LIKE` is modelled as plain substring containment. In the source, `%` and `_` inside the query act as wildcards, and `\` is LIKE's default escape character: the query `\` becomes the pattern `%\%`, which matches only names containing a literal `%`, where the model lists every name containing a backslash. Matching under the column collation (case, accents, trailing spaces) is not modelled either.
- UserService.GetUserByEmail: email equality is exact string equality. Comparison under the column collation (case, accents, trailing spaces) is not modelled.
- Schema.InsertUser: the unique index on `email` compares under the column collation (case, accents, trailing spaces), so `A@x.com` and `a@x.com` collide in the database. The model's `EmailTaken` and `AuthService.SignUp`'s duplicate check use exact equality.
- ProductService.GetProductsByCategory: the `category` comparison is exact string equality. Comparison under the column collation (case, accents, trailing spaces) is not modelled, so `Books` selecting `books` or `Café` selecting `Cafe` is not modelled.
- AuthService.SignOut and AuthService.GetCurrentUser: the session-token lookups are exact string equality, as is the `sessions` primary key in Schema.InsertSession. Comparison under the column collation (case, accents, trailing spaces) is not modelled. It matters only for tokens that differ in case or padding, which generated UUIDs do not.
- ProductService.GetAllCategories: SQL `GROUP BY` promises no order. The model lists categories in order of first occurrence, and its contract states only membership and distinctness. Grouping is by exact string. Comparison under the column collation (case, accents, trailing spaces) is not modelled, so the model lists `Books` and `books` separately, where the database merges them.
- The one-at-a-time check then insert in `signUp` and `addComment` is assumed to run alone. Concurrent requests, and the race between the check and the insert, are not modelled, and neither is the `Promise.all` fan-out.
- Schema.InsertUser and Schema.InsertComment: a failed insert leaves the auto-increment counter unchanged. InnoDB can use up a value on a failed insert, so later ids can have gaps. Only the ids' uniqueness and order are modelled, not their exact values after a failure.
- Constraint errors carry a fixed message: `Duplicate entry` for a unique key, and the foreign-key text for a missing reference. MySQL's messages also name the value and the key. Both the fixed and the real texts differ from every message a route compares against, so no route's answer depends on the difference.
- ProductsRoute.Get: database faults other than constraint violations are not modelled, for example a lost connection or a timeout. These are what the routes' catch-all 500 answers handle (src/app/api/products/route.ts:20-26, and the same `catch` in the signup and signin routes). So `Get` always answers 200.
- Driver result objects are not modelled. `createProduct` reports only the inserted id, and `updateProduct` and `deleteProduct` return only the new store.
- Products.UpdateProduct: a patch that lists no column is modelled as a no-op. The error Drizzle raises for an empty `set` is not modelled.
- Products.CreateProduct and Products.UpdateProduct: an explicit `id` in the inserted object or in the patch is not modelled.
- Request bodies are modelled by the string fields read from them. A field holding a number or another non-string JSON value is not modelled. `None` stands for a body that is not valid JSON or is `null`, the two cases in which reading the fields throws. Any other JSON value that is not an object is a body with every field missing.
- No collation is declared in the source, so the server default decides every string comparison. Under MySQL 8's default `utf8mb4_0900_ai_ci`, comparisons ignore case and accents. Every comparison in the model is exact string equality.
- NextAuth.Jwt and NextAuth.SessionCallback: token and session properties are modelled as strings or missing. Numeric claims (`iat`, `exp`, `jti`) and `null` values are not modelled. Both contracts keep every property the callbacks do not set.
- The `/api/auth/signout` and `/api/auth/me` routes are not modelled. Their behaviour is `AuthService.SignOut` and `AuthService.GetCurrentUser`.
- Cookie parsing is not modelled. `getCurrentUser` takes the cookie's value directly.
- React components and pages are not modelled, apart from the two extracted algorithms. The carousel index is a natural number: it starts at 0 and neither step produces a negative value.
- The rating insert route, the comment edit routes and the users routes are not modelled. Ratings are only read here. The 1-5 range of `ratings.rating` is a schema comment, not a constraint, so the model does not enforce it either.

## Findings

| source | as written | input that shows it | evidently intended | confidence | as-written member | corrected member |
|---|---|---|---|---|---|---|
| src/app/api/auth/signin/route.ts:39 | The `catch` answers 401 only for the message 'Invalid credentials', but `signIn` throws 'Invalid email or password' (src/services/authService.ts:52,58). So bad credentials fall through to 500 'Failed to sign in'. | Sign in with email `a@b.c` and password `x` against a store with no such user. | Bad credentials answer 401 'Invalid email or password' (the route compares against the message the service throws). | not executed | SigninRoute.BadCredentialsGive500 | SigninRoute.IntendedBadCredentialsGive401 |

=== FILE: auth_service.dfy ===
/**
 * `src/services/authService.ts`: the session-cookie authentication state
 * machine. Each operation is a transition on the store. The password hash,
 * its verifier, the salt generator, the token generator and the clock are
 * outside the model: the hash and verifier are a `Crypto` pair of functions,
 * the salt, the fresh token and the current time are parameters.
 */
module AuthService {
  import opened Common
  import opened Schema
  import UserService

  /** One day on the clock, in seconds. */
  const DAY: int := 24 * 60 * 60

  /** A new session expires seven days after sign-in. */
  const SESSION_LIFETIME: int := 7 * DAY

  const DUPLICATE_USER: string := "User with this email already exists"
  const INVALID_CREDENTIALS: string := "Invalid email or password"

  /** A user record with the `password` field removed. */
  datatype PublicUser = PublicUser(id: int, email: string, name: string, role: string)

  datatype SignUpData = SignUpData(email: string, password: string, name: string)
  datatype SignInData = SignInData(email: string, password: string)
  datatype SignInResult = SignInResult(user: PublicUser, sessionId: string)

  /** The salted one-way hash and its verifier (bcrypt's `hash` and `compare`). */
  datatype Crypto = Crypto(hash: (string, string) -> string, verify: (string, string) -> bool)

  /** The one thing assumed of the hash: a password verifies against its own hash. */
  ghost predicate Sound(c: Crypto) {
    forall password, salt :: c.verify(password, c.hash(password, salt))
  }

  /** `const { password, ...rest } = user`. */
  function WithoutPassword(u: UserRow): (p: PublicUser)
    ensures p.id == u.id && p.email == u.email && p.name == u.name && p.role == u.role
    ensures UserRow(p.id, p.name, p.email, u.password, p.role) == u
  {
    PublicUser(u.id, u.email, u.name, u.role)
  }

  /** The public record carries nothing of the password: rows that differ only in it look the same. */
  lemma WithoutPasswordForgetsPassword(u: UserRow, password: string)
    ensures WithoutPassword(u.(password := password)) == WithoutPassword(u)
  {
  }

  /**
   * `signUp`: refuses an email that is already registered; otherwise stores
   * the hash of the password under a fresh id and returns the stored row —
   * the hash included, since the declared return type is the full `User`.
   */
  function SignUp(s: Store, data: SignUpData, salt: string, crypto: Crypto): (out: Step<UserRow>)
    ensures EmailTaken(s, data.email) ==> out == Step(Err(Thrown(DUPLICATE_USER)), s)
    ensures !EmailTaken(s, data.email) ==> out.result.Ok?
    ensures out.result.Ok? ==>
      var u := out.result.value;
      && u == UserRow(s.nextUserId, data.name, data.email, crypto.hash(data.password, salt), DEFAULT_ROLE)
      && out.store == s.(users := s.users + [u], nextUserId := s.nextUserId + 1)
      && UserByEmail(out.store, data.email) == Some(u)
    ensures Valid(s) ==> Valid(out.store)
  {
    if EmailTaken(s, data.email) then Step(Err(Thrown(DUPLICATE_USER)), s)
    else UserService.CreateUser(s, data.email, data.name, crypto.hash(data.password, salt))
  }

  /**
   * `signIn`: an unknown email and a password that does not verify raise the
   * same error and change nothing. Otherwise a session owned by the user and
   * expiring `SESSION_LIFETIME` after `now` is inserted under the generated
   * token, and the user (without password) is returned with that token. The
   * insert itself can still fail if the token is already in use.
   */
  function SignIn(s: Store, data: SignInData, now: int, sessionId: string, crypto: Crypto): (out: Step<SignInResult>)
    ensures !EmailTaken(s, data.email) ==> out == Step(Err(Thrown(INVALID_CREDENTIALS)), s)
    ensures Valid(s) ==> forall u :: u in s.users && u.email == data.email && !crypto.verify(data.password, u.password) ==>
      out == Step(Err(Thrown(INVALID_CREDENTIALS)), s)
    ensures out.result.Err? ==> out.store == s
    ensures out.result.Ok? ==>
      exists u ::
        && u in s.users && u.email == data.email
        && crypto.verify(data.password, u.password)
        && out.result.value == SignInResult(WithoutPassword(u), sessionId)
        && out.store == s.(sessions := s.sessions + [SessionRow(sessionId, u.id, now + SESSION_LIFETIME)])
    ensures Valid(s) ==> forall u :: u in s.users && u.email == data.email && crypto.verify(data.password, u.password) ==>
      (out.result.Ok? <==> !SessionIdTaken(s, sessionId))
    ensures Valid(s) ==> Valid(out.store)
  {
    EmailIdentifiesUser(s);
    match UserByEmail(s, data.email)
    case None => Step(Err(Thrown(INVALID_CREDENTIALS)), s)
    case Some(u) =>
      if !crypto.verify(data.password, u.password) then Step(Err(Thrown(INVALID_CREDENTIALS)), s)
      else
        assert u.id in UserIds(s);
        match InsertSession(s, sessionId, u.id, now + SESSION_LIFETIME)
        case Err(e) => Step(Err(e), s)
        case Ok(s') => Step(Ok(SignInResult(WithoutPassword(u), sessionId)), s')
  }

  /** `signOut`: deletes the session with that token, if there is one. */
  function SignOut(s: Store, sessionId: string): (s': Store)
    ensures forall x :: x in s'.sessions <==> x in s.sessions && x.id != sessionId
    ensures !SessionIdTaken(s, sessionId) ==> s' == s
    ensures s'.users == s.users && s'.products == s.products
      && s'.comments == s.comments && s'.ratings == s.ratings
    ensures Valid(s) ==> Valid(s')
  {
    DeleteSession(s, sessionId)
  }

  /**
   * `getCurrentUser`: no user for a missing or empty cookie, an unknown
   * token, or a session whose `expiresAt` is strictly before `now` (a session
   * expiring exactly now still counts); otherwise the owner without password.
   * It only reads the store: the expired row is not removed.
   */
  function GetCurrentUser(s: Store, cookie: Option<string>, now: int): (r: Option<PublicUser>)
    ensures cookie == None || cookie == Some("") ==> r == None
    ensures r.Some? ==>
      exists x, u ::
        && x in s.sessions && u in s.users
        && x.id == cookie.value && x.userId == u.id && now <= x.expiresAt
        && r.value == WithoutPassword(u)
    ensures Valid(s) && cookie.Some? && cookie.value != "" ==>
      (r.Some? <==> exists x :: x in s.sessions && x.id == cookie.value && now <= x.expiresAt)
  {
    TokenIdentifiesSession(s);
    if cookie.None? || cookie.value == "" then None
    else
      match SessionById(s, cookie.value)
      case None => None
      case Some(x) =>
        match UserById(s, x.userId)
        case None => None
        case Some(u) => if x.expiresAt < now then None else Some(WithoutPassword(u))
  }

  /** A fresh registration can sign in with the same password, given a sound hash and an unused token. */
  lemma SignUpThenSignIn(s: Store, data: SignUpData, salt: string, crypto: Crypto, now: int, sessionId: string)
    requires Valid(s) && Sound(crypto)
    requires !EmailTaken(s, data.email) && !SessionIdTaken(s, sessionId)
    ensures var up := SignUp(s, data, salt, crypto);
      var inn := SignIn(up.store, SignInData(data.email, data.password), now, sessionId, crypto);
      && inn.result.Ok?
      && inn.result.value.user == WithoutPassword(up.result.value)
      && inn.result.value.sessionId == sessionId
  {
    var up := SignUp(s, data, salt, crypto);
    var u := up.result.value;
    assert crypto.verify(data.password, crypto.hash(data.password, salt));
    assert u in up.store.users;
    assert !SessionIdTaken(up.store, sessionId) by {
      assert up.store.sessions == s.sessions;
    }
    var inn := SignIn(up.store, SignInData(data.email, data.password), now, sessionId, crypto);
    EmailIdentifiesUser(up.store);
  }

  /**
   * After a successful sign-in the token identifies the signed-in user until
   * the session expires, and not a moment after.
   */
  lemma SignInThenCurrentUser(s: Store, data: SignInData, now: int, sessionId: string, crypto: Crypto, later: int)
    requires Valid(s) && sessionId != ""
    requires SignIn(s, data, now, sessionId, crypto).result.Ok?
    ensures var out := SignIn(s, data, now, sessionId, crypto);
      GetCurrentUser(out.store, Some(sessionId), later)
        == if later <= now + SESSION_LIFETIME then Some(out.result.value.user) else None
  {
    var out := SignIn(s, data, now, sessionId, crypto);
    var u :| u in s.users && u.email == data.email
      && crypto.verify(data.password, u.password)
      && out.result.value == SignInResult(WithoutPassword(u), sessionId)
      && out.store == s.(sessions := s.sessions + [SessionRow(sessionId, u.id, now + SESSION_LIFETIME)]);
    var x := SessionRow(sessionId, u.id, now + SESSION_LIFETIME);
    assert x in out.store.sessions;
    TokenIdentifiesSession(out.store);
    IdIdentifiesUser(out.store);
    assert SessionById(out.store, sessionId) == Some(x);
    assert UserById(out.store, u.id) == Some(u);
  }

  /** After sign-out, the token no longer identifies anyone. */
  lemma SignOutThenCurrentUser(s: Store, sessionId: string, now: int)
    ensures GetCurrentUser(SignOut(s, sessionId), Some(sessionId), now) == None
  {
    var s' := SignOut(s, sessionId);
    assert !SessionIdTaken(s', sessionId);
  }
}

=== FILE: carousel.dfy ===
/**
 * The page arithmetic of `src/components/ProductCarousel.tsx`: the carousel
 * shows `ITEMS_TO_SHOW` products from `currentIndex` on; `next` advances one
 * page or wraps to the start, `prev` goes back one page or wraps to the last
 * full page. `len` is `products.length`.
 */
module Carousel {

  const ITEMS_TO_SHOW: int := 4

  /** `nextSlide`'s update of the index. */
  function NextSlide(i: nat, len: nat): (j: nat)
    ensures j > i ==> j == i + ITEMS_TO_SHOW && j < len
    ensures j <= i ==> j == 0 && i + ITEMS_TO_SHOW >= len
    ensures 0 < len ==> j < len
    ensures len <= ITEMS_TO_SHOW ==> j == 0
  {
    if i + ITEMS_TO_SHOW >= len then 0 else i + ITEMS_TO_SHOW
  }

  /** `prevSlide`'s update of the index: from the first page it wraps to the last full page. */
  function PrevSlide(i: nat, len: nat): (j: nat)
    ensures i >= ITEMS_TO_SHOW ==> j == i - ITEMS_TO_SHOW
    ensures i < ITEMS_TO_SHOW ==> j == (if len > ITEMS_TO_SHOW then len - ITEMS_TO_SHOW else 0)
    ensures i < len ==> j < len
    ensures i < len <= ITEMS_TO_SHOW ==> j == 0
  {
    if i - ITEMS_TO_SHOW < 0 then (if len - ITEMS_TO_SHOW > 0 then len - ITEMS_TO_SHOW else 0)
    else i - ITEMS_TO_SHOW
  }

  /** Going forward a page and back again returns to the start, when the forward step did not wrap. */
  lemma PrevUndoesNext(i: nat, len: nat)
    requires i + ITEMS_TO_SHOW < len
    ensures PrevSlide(NextSlide(i, len), len) == i
  {
  }

  /** Going back a page and forward again returns to the start, when the backward step did not wrap. */
  lemma NextUndoesPrev(i: nat, len: nat)
    requires ITEMS_TO_SHOW <= i < len
    ensures NextSlide(PrevSlide(i, len), len) == i
  {
  }

  datatype Button = Next | Prev

  /** The index after pressing `presses` in order, from index `i`. */
  function Press(i: nat, len: nat, presses: seq<Button>): nat
    decreases |presses|
  {
    if |presses| == 0 then i
    else
      var last := presses[|presses| - 1];
      var before := Press(i, len, presses[..|presses| - 1]);
      if last == Next then NextSlide(before, len) else PrevSlide(before, len)
  }

  /** From the first page, any sequence of presses keeps the index on a product. */
  lemma {:induction false} PressesStayInBounds(len: nat, presses: seq<Button>)
    requires len > 0
    ensures 0 <= Press(0, len, presses) < len
    decreases |presses|
  {
    if |presses| > 0 {
      PressesStayInBounds(len, presses[..|presses| - 1]);
    }
  }

  /** With at most one page of products, every press leaves the carousel on the first product. */
  lemma {:induction false} SinglePageStaysAtStart(len: nat, presses: seq<Button>)
    requires 0 < len <= ITEMS_TO_SHOW
    ensures Press(0, len, presses) == 0
    decreases |presses|
  {
    if |presses| > 0 {
      SinglePageStaysAtStart(len, presses[..|presses| - 1]);
    }
  }

  /** Pressing only `next` from the start visits page starts: every index is a multiple of the page size. */
  lemma {:induction false} NextOnlyLandsOnPageStarts(len: nat, n: nat)
    ensures Press(0, len, seq(n, _ => Next)) % ITEMS_TO_SHOW == 0
    decreases n
  {
    if n > 0 {
      assert seq(n, _ => Next)[..n - 1] == seq(n - 1, _ => Next);
      NextOnlyLandsOnPageStarts(len, n - 1);
    }
  }
}

=== FILE: category_groups.dfy ===
/**
 * The `reduce` of `src/app/categories/page.tsx` that groups the product
 * listing by category: each product goes to the first group whose name is
 * its category, or opens a new group at the end. The result is a partition
 * of the listing by exact category string, with groups in order of each
 * category's first occurrence and products in listing order.
 */
module CategoryGroups {
  import opened Common
  import ProductService

  type Product = ProductService.Product

  datatype CategoryGroup = CategoryGroup(name: string, products: seq<Product>)

  /** `acc.find(cat => cat.name === name)`, as the position of the group found. */
  function FindGroup(acc: seq<CategoryGroup>, name: string): (k: Option<nat>)
    ensures k.None? <==> forall i :: 0 <= i < |acc| ==> acc[i].name != name
    ensures k.Some? ==> k.value < |acc| && acc[k.value].name == name
    ensures k.Some? ==> forall i :: 0 <= i < k.value ==> acc[i].name != name
    decreases |acc|
  {
    if |acc| == 0 then None
    else if acc[0].name == name then Some(0)
    else
      match FindGroup(acc[1..], name)
      case None => None
      case Some(k) => Some(k + 1)
  }

  /**
   * The reducer: the product joins the first group named after its category,
   * or a new group at the end when there is none; no other group changes.
   */
  function AddToGroup(acc: seq<CategoryGroup>, p: Product): (r: seq<CategoryGroup>)
    ensures |r| == |acc| || |r| == |acc| + 1
    ensures |r| == |acc| + 1 <==> forall i :: 0 <= i < |acc| ==> acc[i].name != p.category
    ensures forall i :: 0 <= i < |acc| ==> r[i].name == acc[i].name
    ensures exists k :: JoinedAt(acc, p, r, k)
  {
    match FindGroup(acc, p.category)
    case Some(k) =>
      var r := acc[k := CategoryGroup(acc[k].name, acc[k].products + [p])];
      assert JoinedAt(acc, p, r, k);
      r
    case None =>
      var r := acc + [CategoryGroup(p.category, [p])];
      assert JoinedAt(acc, p, r, |acc|);
      r
  }

  /**
   * In `r`, the product sits at the end of group `k`, the first group named
   * after its category, which is `acc`'s group `k` extended or a new group;
   * every other group of `acc` is unchanged.
   */
  predicate JoinedAt(acc: seq<CategoryGroup>, p: Product, r: seq<CategoryGroup>, k: int) {
    && 0 <= k < |r|
    && r[k].name == p.category
    && (forall i :: 0 <= i < k ==> r[i].name != p.category)
    && r[k].products == (if k < |acc| then acc[k].products else []) + [p]
    && (forall i :: 0 <= i < |acc| && i != k ==> i < |r| && r[i] == acc[i])
  }

  /** `products.reduce(AddToGroup, [])`: no group is empty and no two groups share a name. */
  function GroupByCategory(ps: seq<Product>): (r: seq<CategoryGroup>)
    ensures forall i :: 0 <= i < |r| ==> |r[i].products| > 0
    ensures forall i, j :: 0 <= i < j < |r| ==> r[i].name != r[j].name
    decreases |ps|
  {
    if |ps| == 0 then [] else AddToGroup(GroupByCategory(ps[..|ps| - 1]), ps[|ps| - 1])
  }

  function Category(p: Product): string { p.category }

  /** "Has category `name`", by exact string equality. */
  function InCategory(name: string): Product -> bool {
    (p: Product) => p.category == name
  }

  /** The categories of `ps`, each once, in order of first occurrence. */
  function CategoryNames(ps: seq<Product>): (r: seq<string>)
    ensures forall n :: n in r <==> exists p :: p in ps && p.category == n
    ensures forall i, j :: 0 <= i < j < |r| ==> r[i] != r[j]
  {
    var cs := MapSeq(ps, Category);
    assert forall n :: n in cs <==> exists p :: p in ps && p.category == n by {
      forall n | n in cs ensures exists p :: p in ps && p.category == n {
        var i :| 0 <= i < |cs| && cs[i] == n;
        assert ps[i] in ps;
      }
      forall p | p in ps ensures p.category in cs {
        var i :| 0 <= i < |ps| && ps[i] == p;
        assert cs[i] == p.category;
      }
    }
    DistinctInOrder(cs)
  }

  /** The partition the fold is meant to compute: one group per category, holding that category's products in order. */
  function Partition(ps: seq<Product>): (r: seq<CategoryGroup>)
    ensures |r| == |CategoryNames(ps)|
    ensures forall i :: 0 <= i < |r| ==>
      r[i] == CategoryGroup(CategoryNames(ps)[i], Filter(ps, InCategory(CategoryNames(ps)[i])))
  {
    var names := CategoryNames(ps);
    seq(|names|, i requires 0 <= i < |names| => CategoryGroup(names[i], Filter(ps, InCategory(names[i]))))
  }

  /** Filtering a sequence extended by one element. */
  lemma FilterSnoc(xs: seq<Product>, p: Product, f: Product -> bool)
    ensures Filter(xs + [p], f) == Filter(xs, f) + (if f(p) then [p] else [])
  {
    FilterAppend(xs, [p], f);
    assert Filter([p], f) == (if f(p) then [p] else []) by {
      assert [p][1..] == [];
    }
  }

  /** The category names of a sequence extended by one product. */
  lemma CategoryNamesSnoc(ps: seq<Product>, p: Product)
    ensures CategoryNames(ps + [p])
      == if p.category in CategoryNames(ps) then CategoryNames(ps) else CategoryNames(ps) + [p.category]
  {
    var qs := ps + [p];
    var cs := MapSeq(qs, Category);
    assert cs[..|cs| - 1] == MapSeq(ps, Category);
    assert cs[|cs| - 1] == p.category;
  }

  /** Adding a product of a category already present extends that category's group only. */
  lemma PartitionSnocFound(qs: seq<Product>, p: Product, k: nat)
    requires k < |CategoryNames(qs)| && CategoryNames(qs)[k] == p.category
    ensures var acc := Partition(qs);
      Partition(qs + [p]) == acc[k := CategoryGroup(acc[k].name, acc[k].products + [p])]
  {
    var ps := qs + [p];
    var acc := Partition(qs);
    var names := CategoryNames(qs);
    CategoryNamesSnoc(qs, p);
    assert CategoryNames(ps) == names;
    var r := Partition(ps);
    var updated := acc[k := CategoryGroup(acc[k].name, acc[k].products + [p])];
    forall i | 0 <= i < |r| ensures r[i] == updated[i] {
      FilterSnoc(qs, p, InCategory(names[i]));
      if i != k {
        assert names[i] != p.category;
      }
    }
  }

  /** Adding a product of a new category opens a group for it at the end. */
  lemma PartitionSnocNew(qs: seq<Product>, p: Product)
    requires p.category !in CategoryNames(qs)
    ensures Partition(qs + [p]) == Partition(qs) + [CategoryGroup(p.category, [p])]
  {
    var ps := qs + [p];
    var acc := Partition(qs);
    var names := CategoryNames(qs);
    CategoryNamesSnoc(qs, p);
    assert CategoryNames(ps) == names + [p.category];
    var r := Partition(ps);
    var extended := acc + [CategoryGroup(p.category, [p])];
    forall i | 0 <= i < |r| ensures r[i] == extended[i] {
      if i == |acc| {
        FilterSnoc(qs, p, InCategory(p.category));
        assert forall x :: x in qs ==> !InCategory(p.category)(x);
        FilterNone(qs, InCategory(p.category));
      } else {
        FilterSnoc(qs, p, InCategory(names[i]));
        assert names[i] != p.category;
      }
    }
  }

  /** The fold computes the partition. */
  lemma {:induction false} GroupByIsPartition(ps: seq<Product>)
    ensures GroupByCategory(ps) == Partition(ps)
    decreases |ps|
  {
    if |ps| > 0 {
      var qs := ps[..|ps| - 1];
      var p := ps[|ps| - 1];
      assert ps == qs + [p];
      GroupByIsPartition(qs);
      var acc := Partition(qs);
      match FindGroup(acc, p.category)
      case Some(k) =>
        PartitionSnocFound(qs, p, k);
      case None =>
        assert forall i :: 0 <= i < |CategoryNames(qs)| ==> CategoryNames(qs)[i] == acc[i].name;
        PartitionSnocNew(qs, p);
    }
  }

  /** Of two names, the earlier one is the category of a product listed before any product of the later one. */
  ghost predicate ByFirstOccurrence(names: seq<string>, ps: seq<Product>) {
    forall i, j :: 0 <= i < j < |names| ==>
      exists k :: 0 <= k < |ps| && ps[k].category == names[i] && (forall m :: 0 <= m <= k ==> ps[m].category != names[j])
  }

  /** The categories are named in order of first occurrence in the listing. */
  lemma CategoryNamesFirstOccurrence(ps: seq<Product>)
    ensures ByFirstOccurrence(CategoryNames(ps), ps)
  {
    var names := CategoryNames(ps);
    var cs := MapSeq(ps, Category);
    assert names == DistinctInOrder(cs);
    DistinctInOrderFirstOccurrence(cs);
    assert FirstOccurrenceOrder(names, cs);
    forall i, j | 0 <= i < j < |names|
      ensures exists k :: 0 <= k < |ps| && ps[k].category == names[i] && (forall m :: 0 <= m <= k ==> ps[m].category != names[j])
    {
      var k :| 0 <= k < |cs| && cs[k] == names[i] && names[j] !in cs[..k + 1];
      forall m | 0 <= m <= k ensures ps[m].category != names[j] {
        assert cs[..k + 1][m] == cs[m] == ps[m].category;
      }
      assert 0 <= k < |ps| && ps[k].category == names[i];
    }
  }

  /** A group's name. */
  function GroupName(g: CategoryGroup): string { g.name }

  /** The partition's group names are the categories, in order of first occurrence. */
  lemma PartitionNames(ps: seq<Product>)
    ensures var gs := Partition(ps);
      && |gs| == |CategoryNames(ps)|
      && (forall i :: 0 <= i < |gs| ==> gs[i].name == CategoryNames(ps)[i])
      && ByFirstOccurrence(MapSeq(gs, GroupName), ps)
  {
    var gs := Partition(ps);
    CategoryNamesFirstOccurrence(ps);
    assert MapSeq(gs, GroupName) == CategoryNames(ps);
  }

  /**
   * Group names are the listing's categories, pairwise distinct, in order of
   * first occurrence: of two groups, the earlier one's category occurs in the
   * listing before any product of the later one's.
   */
  lemma GroupNames(ps: seq<Product>)
    ensures var gs := GroupByCategory(ps);
      && |gs| == |CategoryNames(ps)|
      && (forall i :: 0 <= i < |gs| ==> gs[i].name == CategoryNames(ps)[i])
      && (forall i, j :: 0 <= i < j < |gs| ==> gs[i].name != gs[j].name)
      && ByFirstOccurrence(MapSeq(gs, GroupName), ps)
  {
    GroupByIsPartition(ps);
    PartitionNames(ps);
  }

  /** In the partition, every product is in the group of its category and in no other. */
  lemma PartitionMembership(ps: seq<Product>)
    ensures var gs := Partition(ps);
      && (forall i, x :: 0 <= i < |gs| && x in gs[i].products ==> x.category == gs[i].name && x in ps)
      && (forall x :: x in ps ==> exists i :: 0 <= i < |gs| && gs[i].name == x.category && x in gs[i].products)
      && (forall x, i, j :: 0 <= i < |gs| && 0 <= j < |gs| && x in gs[i].products && x in gs[j].products ==> i == j)
  {
    var gs := Partition(ps);
    var names := CategoryNames(ps);
    forall x | x in ps ensures exists i :: 0 <= i < |gs| && gs[i].name == x.category && x in gs[i].products {
      assert x.category in names;
      var i :| 0 <= i < |names| && names[i] == x.category;
      assert x in gs[i].products;
    }
  }

  /**
   * Every product of a group has the group's name as its category, and a
   * product is in exactly one group: the one named after its category.
   */
  lemma EachProductInItsGroup(ps: seq<Product>)
    ensures var gs := GroupByCategory(ps);
      && (forall i, x :: 0 <= i < |gs| && x in gs[i].products ==> x.category == gs[i].name && x in ps)
      && (forall x :: x in ps ==> exists i :: 0 <= i < |gs| && gs[i].name == x.category && x in gs[i].products)
      && (forall x, i, j :: 0 <= i < |gs| && 0 <= j < |gs| && x in gs[i].products && x in gs[j].products ==> i == j)
  {
    GroupByIsPartition(ps);
    PartitionMembership(ps);
  }

  /** The sum of the group sizes. */
  function TotalSize(gs: seq<CategoryGroup>): nat
    decreases |gs|
  {
    if |gs| == 0 then 0 else TotalSize(gs[..|gs| - 1]) + |gs[|gs| - 1].products|
  }

  lemma {:induction false} TotalSizeUpdate(gs: seq<CategoryGroup>, k: nat, g: CategoryGroup)
    requires k < |gs|
    ensures TotalSize(gs[k := g]) == TotalSize(gs) - |gs[k].products| + |g.products|
    decreases |gs|
  {
    var n := |gs| - 1;
    if k < n {
      assert gs[k := g][..n] == gs[..n][k := g];
      TotalSizeUpdate(gs[..n], k, g);
    } else {
      assert gs[k := g][..n] == gs[..n];
    }
  }

  /** No product is lost or duplicated: the group sizes add up to the listing's length. */
  lemma {:induction false} GroupSizesAddUp(ps: seq<Product>)
    ensures TotalSize(GroupByCategory(ps)) == |ps|
    decreases |ps|
  {
    if |ps| > 0 {
      var qs := ps[..|ps| - 1];
      var p := ps[|ps| - 1];
      var acc := GroupByCategory(qs);
      GroupSizesAddUp(qs);
      match FindGroup(acc, p.category)
      case Some(k) =>
        TotalSizeUpdate(acc, k, CategoryGroup(acc[k].name, acc[k].products + [p]));
      case None =>
        assert (acc + [CategoryGroup(p.category, [p])])[..|acc|] == acc;
    }
  }
}

=== FILE: comment_service.dfy ===
/**
 * `src/services/commentService.ts`: list a product's comments, count them,
 * and add a comment — refused when the author already commented on that
 * product, so each (product, user) pair has at most one comment.
 */
module CommentService {
  import opened Common
  import opened Schema

  const ALREADY_COMMENTED: string := "User has already commented on this product"

  /** The (product, author) pair of a comment. */
  function AuthorKey(c: CommentRow): (int, int) { (c.productId, c.userId) }

  /** At most one comment per (product, author) pair. */
  ghost predicate OnePerAuthor(comments: seq<CommentRow>) {
    UniqueBy(comments, AuthorKey)
  }

  predicate HasCommented(s: Store, productId: int, userId: int) {
    exists c :: c in s.comments && c.productId == productId && c.userId == userId
  }

  /** "Is a comment on product `productId`". */
  function OnProduct(productId: int): CommentRow -> bool {
    (c: CommentRow) => c.productId == productId
  }

  /**
   * `getCommentsByProductId`: the comments on that product, each as many
   * times as it is stored, and no other; no order is requested of the store.
   */
  function GetCommentsByProductId(s: Store, productId: int): (r: seq<CommentRow>)
    ensures forall c :: c in r <==> c in s.comments && c.productId == productId
    ensures forall c :: multiset(r)[c] == if c.productId == productId then multiset(s.comments)[c] else 0
    ensures |r| <= |s.comments|
  {
    FilterMultiset(s.comments, OnProduct(productId));
    Filter(s.comments, OnProduct(productId))
  }

  /** `getCommentCountByProductId`: the length of the same listing, which is the number of stored comments on the product. */
  function GetCommentCountByProductId(s: Store, productId: int): (n: nat)
    ensures n == |GetCommentsByProductId(s, productId)|
    ensures n == Count(s.comments, OnProduct(productId))
    ensures n == 0 <==> forall c :: c in s.comments ==> c.productId != productId
    ensures n <= |s.comments|
  {
    var r := GetCommentsByProductId(s, productId);
    assert |r| > 0 ==> r[0] in r;
    FilterLength(s.comments, OnProduct(productId));
    |r|
  }

  /**
   * `addComment`: refuses a second comment by the same user on the same
   * product and leaves the store as it was; otherwise inserts the comment
   * (any content, the empty string included — no validation happens here)
   * and returns the row just inserted. The foreign keys still refuse an
   * unknown product or user.
   */
  function AddComment(s: Store, productId: int, userId: int, content: string): (out: Step<CommentRow>)
    ensures HasCommented(s, productId, userId) ==> out == Step(Err(Thrown(ALREADY_COMMENTED)), s)
    ensures out.result.Err? ==> out.store == s
    ensures !HasCommented(s, productId, userId) ==>
      (out.result.Ok? <==> productId in ProductIds(s) && userId in UserIds(s))
    ensures out.result.Ok? ==>
      var c := out.result.value;
      && c == CommentRow(s.nextCommentId, productId, userId, content)
      && out.store == s.(comments := s.comments + [c], nextCommentId := s.nextCommentId + 1)
    ensures OnePerAuthor(s.comments) ==> OnePerAuthor(out.store.comments)
    ensures Valid(s) ==> Valid(out.store)
  {
    if HasCommented(s, productId, userId) then Step(Err(Thrown(ALREADY_COMMENTED)), s)
    else
      match InsertComment(s, productId, userId, content)
      case Err(e) => Step(Err(e), s)
      case Ok(s') =>
        var c := s'.comments[|s.comments|];
        assert s'.comments == s.comments + [c];
        AddKeepsOnePerAuthor(s.comments, c);
        Step(Ok(c), s')
  }

  /** Appending a comment whose (product, author) pair is new keeps one comment per pair. */
  lemma AddKeepsOnePerAuthor(comments: seq<CommentRow>, c: CommentRow)
    requires forall x :: x in comments ==> !(x.productId == c.productId && x.userId == c.userId)
    ensures OnePerAuthor(comments) ==> OnePerAuthor(comments + [c])
  {
    if OnePerAuthor(comments) {
      AppendUniqueBy(comments, c, AuthorKey);
    }
  }

  /** A comment just added is listed for its product, alongside the ones already there. */
  lemma AddThenList(s: Store, productId: int, userId: int, content: string)
    requires AddComment(s, productId, userId, content).result.Ok?
    ensures var out := AddComment(s, productId, userId, content);
      && out.result.value in GetCommentsByProductId(out.store, productId)
      && GetCommentCountByProductId(out.store, productId) == GetCommentCountByProductId(s, productId) + 1
  {
    var out := AddComment(s, productId, userId, content);
    var c := out.result.value;
    FilterAppend(s.comments, [c], OnProduct(productId));
  }
}

=== FILE: common.dfy ===
/**
 * Shared vocabulary of the storefront model: optional values, the errors a
 * service call can raise, results, and the sequence helpers (filtering,
 * distinct-in-order, key uniqueness) that the tables and the services reuse.
 */
module Common {

  /** A value that may be missing: JavaScript's `null` / `undefined`. */
  datatype Option<+T> = None | Some(value: T)

  /**
   * What a failing call raises. `Thrown` is an `Error` thrown by application
   * code, identified by its message; the other two are constraint violations
   * reported by the relational store.
   */
  datatype Error =
    | Thrown(text: string)
    | DuplicateEntry(key: string)
    | MissingReference(key: string)
  {
    /** The `message` property a `catch` block sees. */
    function Message(): string {
      match this
      case Thrown(t) => t
      case DuplicateEntry(_) => "Duplicate entry"
      case MissingReference(_) => "Cannot add or update a child row: a foreign key constraint fails"
    }
  }

  /** JavaScript truthiness of an optional string: present and not empty. */
  predicate Truthy(v: Option<string>) {
    v.Some? && v.value != ""
  }

  /** The outcome of a call that either returns a value or throws. */
  datatype Result<+T> = Ok(value: T) | Err(error: Error)

  /** The elements of `xs` that satisfy `p`, in their original order. */
  function Filter<T(!new)>(xs: seq<T>, p: T -> bool): (r: seq<T>)
    ensures |r| <= |xs|
    ensures forall x :: x in r <==> x in xs && p(x)
    decreases |xs|
  {
    if |xs| == 0 then []
    else if p(xs[0]) then [xs[0]] + Filter(xs[1..], p)
    else Filter(xs[1..], p)
  }

  /** Filtering distributes over concatenation. */
  lemma {:induction false} FilterAppend<T(!new)>(xs: seq<T>, ys: seq<T>, p: T -> bool)
    ensures Filter(xs + ys, p) == Filter(xs, p) + Filter(ys, p)
    decreases |xs|
  {
    if |xs| == 0 {
      assert xs + ys == ys;
    } else {
      assert (xs + ys)[1..] == xs[1..] + ys;
      FilterAppend(xs[1..], ys, p);
    }
  }

  /** A filter that every element passes keeps the whole sequence. */
  lemma {:induction false} FilterKeepsAll<T(!new)>(xs: seq<T>, p: T -> bool)
    requires forall i :: 0 <= i < |xs| ==> p(xs[i])
    ensures Filter(xs, p) == xs
    decreases |xs|
  {
    if |xs| > 0 {
      FilterKeepsAll(xs[1..], p);
    }
  }

  /** A filter no element passes is empty. */
  lemma FilterNone<T(!new)>(xs: seq<T>, p: T -> bool)
    requires forall x :: x in xs ==> !p(x)
    ensures Filter(xs, p) == []
  {
  }

  /** A filter keeps each element as many times as `xs` holds it, when it passes, and never otherwise. */
  lemma {:induction false} FilterMultiset<T(!new)>(xs: seq<T>, p: T -> bool)
    ensures forall x :: multiset(Filter(xs, p))[x] == if p(x) then multiset(xs)[x] else 0
    decreases |xs|
  {
    if |xs| > 0 {
      FilterMultiset(xs[1..], p);
      assert xs == [xs[0]] + xs[1..];
    }
  }

  /** How many elements of `xs` satisfy `p`, counted with repeats. */
  function Count<T>(xs: seq<T>, p: T -> bool): nat
    decreases |xs|
  {
    if |xs| == 0 then 0 else (if p(xs[0]) then 1 else 0) + Count(xs[1..], p)
  }

  /** A filter is as long as the number of elements that pass it. */
  lemma {:induction false} FilterLength<T(!new)>(xs: seq<T>, p: T -> bool)
    ensures |Filter(xs, p)| == Count(xs, p)
    decreases |xs|
  {
    if |xs| > 0 {
      FilterLength(xs[1..], p);
    }
  }

  /** No two elements of `xs` share a key. */
  ghost predicate UniqueBy<T, K>(xs: seq<T>, key: T -> K) {
    forall i, j :: 0 <= i < j < |xs| ==> key(xs[i]) != key(xs[j])
  }

  /** Filtering keeps keys unique: a filter is a subsequence. */
  lemma {:induction false} FilterUniqueBy<T(!new), K>(xs: seq<T>, p: T -> bool, key: T -> K)
    requires UniqueBy(xs, key)
    ensures UniqueBy(Filter(xs, p), key)
    decreases |xs|
  {
    if |xs| > 0 {
      assert UniqueBy(xs[1..], key) by {
        forall i, j | 0 <= i < j < |xs[1..]|
          ensures key(xs[1..][i]) != key(xs[1..][j])
        {
          assert xs[1..][i] == xs[i + 1] && xs[1..][j] == xs[j + 1];
        }
      }
      FilterUniqueBy(xs[1..], p, key);
      var rest := Filter(xs[1..], p);
      if p(xs[0]) {
        forall y | y in rest ensures key(y) != key(xs[0]) {
          var j :| 0 <= j < |xs[1..]| && xs[1..][j] == y;
          assert xs[j + 1] == y;
        }
      }
    }
  }

  /** Appending an element whose key is new keeps keys unique. */
  lemma AppendUniqueBy<T, K>(xs: seq<T>, x: T, key: T -> K)
    requires UniqueBy(xs, key)
    requires forall y :: y in xs ==> key(y) != key(x)
    ensures UniqueBy(xs + [x], key)
  {
    forall i, j | 0 <= i < j < |xs + [x]|
      ensures key((xs + [x])[i]) != key((xs + [x])[j])
    {
      if j == |xs| {
        assert (xs + [x])[i] in xs;
      }
    }
  }

  /**
   * The distinct elements of `xs`, each kept at its first occurrence, built
   * left to right the way a `reduce` over `xs` would.
   */
  function DistinctInOrder<T(==,!new)>(xs: seq<T>): (r: seq<T>)
    ensures forall x :: x in r <==> x in xs
    ensures forall i, j :: 0 <= i < j < |r| ==> r[i] != r[j]
    decreases |xs|
  {
    if |xs| == 0 then []
    else
      var d := DistinctInOrder(xs[..|xs| - 1]);
      assert xs == xs[..|xs| - 1] + [xs[|xs| - 1]];
      if xs[|xs| - 1] in d then d else d + [xs[|xs| - 1]]
  }

  /** Of two elements of `d`, the earlier one occurs in `xs` before the later one occurs at all. */
  ghost predicate FirstOccurrenceOrder<T>(d: seq<T>, xs: seq<T>) {
    forall i, j :: 0 <= i < j < |d| ==> exists k :: 0 <= k < |xs| && xs[k] == d[i] && d[j] !in xs[..k + 1]
  }

  /** `DistinctInOrder` lists the elements in order of first occurrence. */
  lemma {:induction false} DistinctInOrderFirstOccurrence<T(!new)>(xs: seq<T>)
    ensures FirstOccurrenceOrder(DistinctInOrder(xs), xs)
    decreases |xs|
  {
    if |xs| > 0 {
      var n := |xs| - 1;
      var pre := xs[..n];
      var x := xs[n];
      var d0 := DistinctInOrder(pre);
      var d := DistinctInOrder(xs);
      DistinctInOrderFirstOccurrence(pre);
      forall i, j | 0 <= i < j < |d| ensures exists k :: 0 <= k < |xs| && xs[k] == d[i] && d[j] !in xs[..k + 1] {
        assert d[i] == d0[i];
        var k: int;
        if j < |d0| {
          assert d[j] == d0[j];
          k :| 0 <= k < |pre| && pre[k] == d0[i] && d0[j] !in pre[..k + 1];
        } else {
          assert d[j] == x && x !in pre;
          assert d0[i] in pre;
          k :| 0 <= k < |pre| && pre[k] == d0[i];
          assert forall y :: y in pre[..k + 1] ==> y in pre;
        }
        assert xs[..k + 1] == pre[..k + 1];
      }
    }
  }

  /** The first element of `xs`, if any: `rows[0]` of a query result. */
  function First<T>(xs: seq<T>): Option<T> {
    if |xs| == 0 then None else Some(xs[0])
  }

  /** The `key` of every element of `xs`, in order (`xs.map(key)`). */
  function MapSeq<T, U>(xs: seq<T>, f: T -> U): (r: seq<U>)
    ensures |r| == |xs|
    ensures forall i :: 0 <= i < |xs| ==> r[i] == f(xs[i])
  {
    seq(|xs|, i requires 0 <= i < |xs| => f(xs[i]))
  }
}

=== FILE: http.dfy ===
/**
 * What a route handler answers: a status, a JSON body — either the
 * `{ error }` object or the handler's payload — and the `Set-Cookie` header
 * when one is sent, together with the store as the handler left it.
 */
module Http {
  import opened Common
  import opened Schema

  datatype Json<+B> = ErrorJson(error: string) | Payload(value: B)

  datatype Response<+B> = Response(status: int, body: Json<B>, setCookie: Option<string>)

  /** A response and the store after the request. */
  datatype Exchange<+B> = Exchange(response: Response<B>, store: Store)

  const OK: int := 200
  const BAD_REQUEST: int := 400
  const UNAUTHORIZED: int := 401
  const CONFLICT: int := 409
  const SERVER_ERROR: int := 500

  /** `NextResponse.json({ error: message }, { status })`. */
  function Failure<B>(status: int, message: string): Response<B> {
    Response(status, ErrorJson(message), None)
  }
}

=== FILE: next_auth.dfy ===
/**
 * `src/lib/auth.ts`: the credentials provider's `authorize` decision and the
 * `jwt` and `session` callbacks. `authorize` reads the store and never writes
 * it; the callbacks are record transformers. A JavaScript object is a map
 * from property names to values, with `Undefined` for a property that was
 * read but never set.
 */
module NextAuth {
  import opened Common
  import opened Schema
  import UserService
  import AuthService
  import Text

  /** The submitted credentials; either field may be missing. */
  datatype CredentialsInput = CredentialsInput(email: Option<string>, password: Option<string>)

  /**
   * A property value as the callbacks see it: missing, or a string. Other
   * JSON values (the token's numeric `iat`, `exp` and `jti`, a `null`
   * `session.user.image`) are not represented; the callbacks copy every
   * property they do not set, so nothing stated here depends on them.
   */
  datatype JsValue = Undefined | Str(text: string)

  type JsObject = map<string, JsValue>

  /** The object `authorize` hands back on success. */
  datatype AuthUser = AuthUser(id: string, email: string, name: string, role: string)

  /** The session object the client receives; `user` is missing for an anonymous session. */
  datatype Session = Session(user: Option<JsObject>, expires: string)

  /** `obj.key`: the property's value, or `Undefined` when the object lacks it. */
  function Get(obj: JsObject, key: string): JsValue {
    if key in obj then obj[key] else Undefined
  }

  /**
   * `authorize`: null for missing or empty credentials, for an email no user
   * has, and for a password that does not verify against the stored hash;
   * otherwise the user's id as decimal text with email, name and role. The
   * result type has no password field, so the hash never leaves.
   */
  function Authorize(s: Store, credentials: Option<CredentialsInput>, crypto: AuthService.Crypto): (r: Option<AuthUser>)
    ensures credentials.None? ==> r == None
    ensures credentials.Some? && !(Truthy(credentials.value.email) && Truthy(credentials.value.password)) ==> r == None
    ensures credentials.Some? && credentials.value.email.Some? && !EmailTaken(s, credentials.value.email.value) ==> r == None
    ensures r.Some? ==>
      exists u ::
        && u in s.users && u.email == credentials.value.email.value
        && crypto.verify(credentials.value.password.value, u.password)
        && r.value == AuthUser(Text.DecimalString(u.id), u.email, u.name, u.role)
    ensures Valid(s) && credentials.Some? && Truthy(credentials.value.email) && Truthy(credentials.value.password) ==>
      (r.Some? <==>
        exists u :: u in s.users && u.email == credentials.value.email.value
          && crypto.verify(credentials.value.password.value, u.password))
  {
    if credentials.None? || !Truthy(credentials.value.email) || !Truthy(credentials.value.password) then None
    else
      var email := credentials.value.email.value;
      var password := credentials.value.password.value;
      match UserService.GetUserByEmail(s, email)
      case None => None
      case Some(u) =>
        if !crypto.verify(password, u.password) then None
        else Some(AuthUser(Text.DecimalString(u.id), u.email, u.name, u.role))
  }

  /** The id `authorize` reports parses back to the user's numeric id. */
  lemma AuthorizedIdIsUserId(s: Store, credentials: Option<CredentialsInput>, crypto: AuthService.Crypto)
    requires Authorize(s, credentials, crypto).Some?
    ensures var a := Authorize(s, credentials, crypto).value;
      exists u :: u in s.users && u.email == a.email
        && Text.IsDecimalText(a.id) && Text.ParseDecimal(a.id) == u.id
  {
    var a := Authorize(s, credentials, crypto).value;
    var u :| u in s.users && u.email == credentials.value.email.value
      && crypto.verify(credentials.value.password.value, u.password)
      && a == AuthUser(Text.DecimalString(u.id), u.email, u.name, u.role);
    assert a.id == Text.DecimalString(u.id);
    Text.DecimalRoundTrip(u.id);
  }

  /**
   * `jwt`: when a user has just signed in, their `id` and `role` are written
   * onto the token; every other property is kept. Without a user the token
   * comes back as it was.
   */
  function Jwt(token: JsObject, user: Option<AuthUser>): (t: JsObject)
    ensures user.None? ==> t == token
    ensures user.Some? ==>
      && t.Keys == token.Keys + {"id", "role"}
      && t["id"] == Str(user.value.id) && t["role"] == Str(user.value.role)
      && forall k :: k in token && k != "id" && k != "role" ==> t[k] == token[k]
  {
    if user.None? then token
    else token["id" := Str(user.value.id)]["role" := Str(user.value.role)]
  }

  /**
   * `session`: when the session has a user, the user's `id` and `role` are
   * replaced by the token's (`Undefined` if the token lacks them) and every
   * other property of the user and of the session is kept; an anonymous
   * session comes back as it was.
   */
  function SessionCallback(session: Session, token: JsObject): (r: Session)
    ensures session.user.None? ==> r == session
    ensures r.expires == session.expires
    ensures session.user.Some? ==>
      && r.user.Some?
      && r.user.value.Keys == session.user.value.Keys + {"id", "role"}
      && r.user.value["id"] == Get(token, "id") && r.user.value["role"] == Get(token, "role")
      && forall k :: k in session.user.value && k != "id" && k != "role" ==> r.user.value[k] == session.user.value[k]
  {
    match session.user
    case None => session
    case Some(u) => session.(user := Some(u["id" := Get(token, "id")]["role" := Get(token, "role")]))
  }

  /**
   * Sign-in through the credentials provider, then the two callbacks: the
   * client's session user carries the stored user's id, as decimal text,
   * and role; and a later `jwt` call without a user keeps them.
   */
  lemma AuthorizeJwtSession(
    s: Store, credentials: Option<CredentialsInput>, crypto: AuthService.Crypto,
    token: JsObject, session: Session)
    requires Authorize(s, credentials, crypto).Some?
    requires session.user.Some?
    ensures var a := Authorize(s, credentials, crypto).value;
      var t := Jwt(Jwt(token, Some(a)), None);
      var r := SessionCallback(session, t);
      exists u ::
        && u in s.users
        && r.user == Some(session.user.value["id" := Str(Text.DecimalString(u.id))]["role" := Str(u.role)])
  {
    var a := Authorize(s, credentials, crypto).value;
    var u :| u in s.users && u.email == credentials.value.email.value
      && crypto.verify(credentials.value.password.value, u.password)
      && a == AuthUser(Text.DecimalString(u.id), u.email, u.name, u.role);
    var t := Jwt(Jwt(token, Some(a)), None);
    assert Get(t, "id") == Str(Text.DecimalString(u.id));
    assert Get(t, "role") == Str(u.role);
  }
}

=== FILE: product_service.dfy ===
/**
 * `src/services/productService.ts`: product rows mapped to the `Product`
 * view (name becomes `title`, the rating aggregate is attached), the three
 * listings (all, by exact category, by `LIKE '%q%'` on the name), the
 * distinct categories, the lookup by id, and the `(avg, count)` aggregate
 * over a product's rating rows.
 */
module ProductService {
  import opened Common
  import opened Schema
  import Text

  /** The aggregate attached to a product: mean of its ratings and how many there are. */
  datatype Rating = Rating(rate: real, count: nat)

  /** The `Product` view record. `price` stays in whole cents. */
  datatype Product = Product(
    id: int, title: string, price: int, description: Option<string>,
    category: string, image: Option<string>, rating: Rating)

  /** `select ... from ratings where product_id = ?`. */
  function RatingsOf(s: Store, productId: int): seq<RatingRow> {
    Filter(s.ratings, (r: RatingRow) => r.productId == productId)
  }

  function SumRatings(rs: seq<RatingRow>): int {
    if |rs| == 0 then 0 else rs[0].rating + SumRatings(rs[1..])
  }

  /** Bounds on every rating bound their sum. */
  lemma {:induction false} SumRatingsBounds(rs: seq<RatingRow>, lo: int, hi: int)
    requires forall r :: r in rs ==> lo <= r.rating <= hi
    ensures |rs| * lo <= SumRatings(rs) <= |rs| * hi
  {
    if |rs| > 0 {
      var tail := rs[1..];
      assert rs[0] in rs;
      assert forall r :: r in tail ==> r in rs;
      SumRatingsBounds(tail, lo, hi);
      assert |rs| == |tail| + 1;
      MulSucc(|tail|, lo);
      MulSucc(|tail|, hi);
    }
  }

  lemma MulSucc(n: int, a: int)
    ensures (n + 1) * a == n * a + a
  {
  }

  /**
   * `getProductRating`: `AVG(rating)` and `COUNT(*)` over the product's
   * rating rows, with 0 for a product that has none (SQL's null average).
   * No existence check: an unknown product simply has no rows.
   */
  function GetProductRating(s: Store, productId: int): (r: Rating)
    ensures r.count == |RatingsOf(s, productId)|
    ensures r.count == 0 <==> forall x :: x in s.ratings ==> x.productId != productId
    ensures r.count == 0 ==> r.rate == 0.0
    ensures r.count > 0 ==> r.rate * (r.count as real) == SumRatings(RatingsOf(s, productId)) as real
  {
    var rs := RatingsOf(s, productId);
    assert |rs| > 0 ==> rs[0] in rs;
    if |rs| == 0 then Rating(0.0, 0)
    else Rating((SumRatings(rs) as real) / (|rs| as real), |rs|)
  }

  /** The mean lies within any bounds that hold of every rating row of the product. */
  lemma RateWithinBounds(s: Store, productId: int, lo: int, hi: int)
    requires forall x :: x in s.ratings && x.productId == productId ==> lo <= x.rating <= hi
    requires GetProductRating(s, productId).count > 0
    ensures lo as real <= GetProductRating(s, productId).rate <= hi as real
  {
    var rs := RatingsOf(s, productId);
    SumRatingsBounds(rs, lo, hi);
    var sum := SumRatings(rs);
    assert GetProductRating(s, productId).rate == (sum as real) / (|rs| as real);
    MeanWithin(sum, |rs|, lo, hi);
  }

  lemma CastMul(a: int, b: int)
    ensures (a * b) as real == (a as real) * (b as real)
  {
  }

  /** Integer bounds on a total carry over to the real mean. */
  lemma MeanWithin(sum: int, n: int, lo: int, hi: int)
    requires n > 0 && n * lo <= sum <= n * hi
    ensures lo as real <= (sum as real) / (n as real) <= hi as real
  {
    CastMul(n, lo);
    CastMul(n, hi);
    var m := (sum as real) / (n as real);
    assert m * (n as real) == sum as real;
    RealBounds(m, n as real, lo as real, hi as real);
  }

  lemma RealBounds(m: real, n: real, lo: real, hi: real)
    requires n > 0.0 && n * lo <= m * n <= n * hi
    ensures lo <= m <= hi
  {
  }

  /** The row a view record was made from: `title` back to `name`, the rating dropped. */
  function RowOf(p: Product): ProductRow {
    ProductRow(p.id, p.title, p.description, p.price, p.category, p.image)
  }

  /** The mapping of one row to its view record: it keeps every column and adds the row's rating aggregate. */
  function View(s: Store, row: ProductRow): (p: Product)
    ensures RowOf(p) == row
    ensures p.rating == GetProductRating(s, row.id)
  {
    Product(row.id, row.name, row.price, row.description, row.category, row.image, GetProductRating(s, row.id))
  }

  /** `rows.map(row => view of row)`. */
  function Views(s: Store, rows: seq<ProductRow>): (r: seq<Product>)
    ensures |r| == |rows|
    ensures forall i :: 0 <= i < |rows| ==> r[i] == View(s, rows[i])
  {
    if |rows| == 0 then [] else [View(s, rows[0])] + Views(s, rows[1..])
  }

  /** Mapping rows to views and then filtering on a view field is filtering the rows on the same field. */
  lemma {:induction false} ViewsCommuteWithFilter(
    s: Store, rows: seq<ProductRow>, keep: ProductRow -> bool, keepView: Product -> bool)
    requires forall row :: keep(row) == keepView(View(s, row))
    ensures Views(s, Filter(rows, keep)) == Filter(Views(s, rows), keepView)
  {
    if |rows| > 0 {
      ViewsCommuteWithFilter(s, rows[1..], keep, keepView);
      assert Views(s, rows)[1..] == Views(s, rows[1..]);
    }
  }

  /** `getAllProducts`: one view per product row, in row order. */
  function GetAllProducts(s: Store): (r: seq<Product>)
    ensures |r| == |s.products|
    ensures forall i :: 0 <= i < |r| ==>
      && r[i].id == s.products[i].id && r[i].title == s.products[i].name
      && r[i].price == s.products[i].price && r[i].description == s.products[i].description
      && r[i].category == s.products[i].category && r[i].image == s.products[i].image
      && r[i].rating == GetProductRating(s, s.products[i].id)
  {
    Views(s, s.products)
  }

  /** `getProductsByCategory`: the rows whose category equals `category` exactly. */
  function GetProductsByCategory(s: Store, category: string): (r: seq<Product>)
    ensures forall p :: p in r ==> p.category == category
    ensures forall row :: row in s.products && row.category == category ==> View(s, row) in r
  {
    var rows := Filter(s.products, (row: ProductRow) => row.category == category);
    var r := Views(s, rows);
    assert forall p :: p in r ==> p.category == category by {
      forall p | p in r ensures p.category == category {
        var i :| 0 <= i < |r| && r[i] == p;
        assert rows[i] in rows;
      }
    }
    assert forall row :: row in rows ==> View(s, row) in r by {
      forall row | row in rows ensures View(s, row) in r {
        var i :| 0 <= i < |rows| && rows[i] == row;
        assert r[i] == View(s, row);
      }
    }
    r
  }

  /** The category listing is the full listing, filtered on category, in the same order. */
  lemma ByCategoryIsFilteredListing(s: Store, category: string)
    ensures GetProductsByCategory(s, category) == Filter(GetAllProducts(s), (p: Product) => p.category == category)
  {
    ViewsCommuteWithFilter(s, s.products,
      (row: ProductRow) => row.category == category, (p: Product) => p.category == category);
  }

  /**
   * `searchProducts`: the rows whose name matches `'%' + query + '%'`, that is,
   * contains `query`. Wildcards inside `query` and collation are not modelled.
   */
  function SearchProducts(s: Store, query: string): (r: seq<Product>)
    ensures forall p :: p in r ==> Text.Contains(p.title, query)
    ensures forall row :: row in s.products && Text.Contains(row.name, query) ==> View(s, row) in r
  {
    var rows := Filter(s.products, (row: ProductRow) => Text.Contains(row.name, query));
    var r := Views(s, rows);
    assert forall p :: p in r ==> Text.Contains(p.title, query) by {
      forall p | p in r ensures Text.Contains(p.title, query) {
        var i :| 0 <= i < |r| && r[i] == p;
        assert rows[i] in rows;
      }
    }
    assert forall row :: row in rows ==> View(s, row) in r by {
      forall row | row in rows ensures View(s, row) in r {
        var i :| 0 <= i < |rows| && rows[i] == row;
        assert r[i] == View(s, row);
      }
    }
    r
  }

  /** The search listing is the full listing, filtered on the title, in the same order. */
  lemma SearchIsFilteredListing(s: Store, query: string)
    ensures SearchProducts(s, query) == Filter(GetAllProducts(s), (p: Product) => Text.Contains(p.title, query))
  {
    ViewsCommuteWithFilter(s, s.products,
      (row: ProductRow) => Text.Contains(row.name, query), (p: Product) => Text.Contains(p.title, query));
  }

  /** `LIKE '%%'` matches every name: an empty search lists every product. */
  lemma EmptySearchListsAll(s: Store)
    ensures SearchProducts(s, "") == GetAllProducts(s)
  {
    SearchIsFilteredListing(s, "");
    var all := GetAllProducts(s);
    forall i | 0 <= i < |all| ensures Text.Contains(all[i].title, "") {
      Text.ContainsEmpty(all[i].title);
    }
    FilterKeepsAll(all, (p: Product) => Text.Contains(p.title, ""));
  }

  function RowCategory(row: ProductRow): string { row.category }

  /**
   * `getAllCategories`: `group by category` yields each category present
   * among the products exactly once. SQL fixes no order; the model lists
   * them by first occurrence.
   */
  function GetAllCategories(s: Store): (r: seq<string>)
    ensures forall c :: c in r <==> exists row :: row in s.products && row.category == c
    ensures forall i, j :: 0 <= i < j < |r| ==> r[i] != r[j]
  {
    var cs := MapSeq(s.products, RowCategory);
    assert forall c :: c in cs <==> exists row :: row in s.products && row.category == c by {
      forall c | c in cs ensures exists row :: row in s.products && row.category == c {
        var i :| 0 <= i < |cs| && cs[i] == c;
        assert s.products[i] in s.products;
      }
      forall row | row in s.products ensures row.category in cs {
        var i :| 0 <= i < |s.products| && s.products[i] == row;
        assert cs[i] == row.category;
      }
    }
    DistinctInOrder(cs)
  }

  /** `getProduct`: null when no row has that id, else the first such row's view. */
  function GetProduct(s: Store, id: int): (r: Option<Product>)
    ensures r.None? <==> forall row :: row in s.products ==> row.id != id
    ensures r.Some? ==> exists row :: row in s.products && row.id == id && r.value == View(s, row)
  {
    var rows := Filter(s.products, (row: ProductRow) => row.id == id);
    assert |rows| > 0 ==> rows[0] in rows;
    match First(rows)
    case None => None
    case Some(row) => Some(View(s, row))
  }
}

=== FILE: products.dfy ===
/**
 * `src/services/products.ts`: the administrative product table operations —
 * list the rows, fetch one by id, insert, partially update and delete.
 */
module Products {
  import opened Common
  import opened Schema
  import ProductService

  /** The insertable columns of a product (`NewProduct` without id and timestamps). */
  datatype NewProduct = NewProduct(
    name: string, description: Option<string>, price: int,
    category: string, image: Option<string>)

  /**
   * `Partial<NewProduct>`: `None` leaves a column as it is. For the nullable
   * columns, `Some(None)` sets the column to null.
   */
  datatype ProductPatch = ProductPatch(
    name: Option<string>, description: Option<Option<string>>, price: Option<int>,
    category: Option<string>, image: Option<Option<string>>)

  /** The driver's answer to an insert: the id the row received. */
  datatype Created = Created(insertId: int, store: Store)

  /** `getProducts`: every product row, unchanged, in table order. */
  function GetProducts(s: Store): (r: seq<ProductRow>)
    ensures |r| == |s.products| && forall i :: 0 <= i < |r| ==> r[i] == s.products[i]
  {
    s.products
  }

  /** `getProduct`: the first row with that id, or undefined; in a valid store the only one. */
  function GetProduct(s: Store, id: int): (r: Option<ProductRow>)
    ensures r.None? <==> forall row :: row in s.products ==> row.id != id
    ensures r.Some? ==> r.value in s.products && r.value.id == id
    ensures Valid(s) && r.Some? ==> forall row :: row in s.products && row.id == id ==> row == r.value
  {
    var rows := Filter(s.products, (row: ProductRow) => row.id == id);
    assert |rows| > 0 ==> rows[0] in rows;
    ProductIdIdentifiesRow(s);
    First(rows)
  }

  /** The storefront's `getAllProducts` lists exactly these rows, in this order, each as its view record. */
  lemma StorefrontListingIsRowListing(s: Store)
    ensures MapSeq(ProductService.GetAllProducts(s), ProductService.RowOf) == GetProducts(s)
  {
  }

  /** The storefront's `getProduct` is this lookup followed by the view mapping. */
  lemma StorefrontLookupIsRowLookup(s: Store, id: int)
    ensures ProductService.GetProduct(s, id)
      == match GetProduct(s, id)
         case None => None
         case Some(row) => Some(ProductService.View(s, row))
  {
  }

  /** `createProduct`: appends one row carrying the supplied fields under the next auto-increment id. */
  function CreateProduct(s: Store, p: NewProduct): (c: Created)
    ensures c.insertId == s.nextProductId
    ensures c.store.products
      == s.products + [ProductRow(c.insertId, p.name, p.description, p.price, p.category, p.image)]
    ensures c.store.users == s.users && c.store.sessions == s.sessions
      && c.store.comments == s.comments && c.store.ratings == s.ratings
    ensures Valid(s) ==> Valid(c.store)
  {
    Created(s.nextProductId, InsertProduct(s, p.name, p.description, p.price, p.category, p.image))
  }

  /** In a valid store, the created row is what a lookup of its id returns. */
  lemma CreateThenGet(s: Store, p: NewProduct)
    requires Valid(s)
    ensures var c := CreateProduct(s, p);
      GetProduct(c.store, c.insertId)
        == Some(ProductRow(c.insertId, p.name, p.description, p.price, p.category, p.image))
  {
    var c := CreateProduct(s, p);
    var row := ProductRow(c.insertId, p.name, p.description, p.price, p.category, p.image);
    assert row in c.store.products;
  }

  /** `.set(patch)` on one row: the listed columns take the patch's values, the rest keep theirs. */
  function ApplyPatch(row: ProductRow, patch: ProductPatch): (r: ProductRow)
    ensures r.id == row.id
    ensures r.name == (if patch.name.Some? then patch.name.value else row.name)
    ensures r.description == (if patch.description.Some? then patch.description.value else row.description)
    ensures r.price == (if patch.price.Some? then patch.price.value else row.price)
    ensures r.category == (if patch.category.Some? then patch.category.value else row.category)
    ensures r.image == (if patch.image.Some? then patch.image.value else row.image)
  {
    row.(
      name := if patch.name.Some? then patch.name.value else row.name,
      description := if patch.description.Some? then patch.description.value else row.description,
      price := if patch.price.Some? then patch.price.value else row.price,
      category := if patch.category.Some? then patch.category.value else row.category,
      image := if patch.image.Some? then patch.image.value else row.image)
  }

  /**
   * `updateProduct`: patches every row with that id and no other row; no
   * other table changes.
   */
  function UpdateProduct(s: Store, id: int, patch: ProductPatch): (s': Store)
    ensures |s'.products| == |s.products|
    ensures forall i :: 0 <= i < |s.products| && s.products[i].id == id ==>
      s'.products[i] == ApplyPatch(s.products[i], patch)
    ensures forall i :: 0 <= i < |s.products| && s.products[i].id != id ==>
      s'.products[i] == s.products[i]
    ensures s'.users == s.users && s'.sessions == s.sessions
      && s'.comments == s.comments && s'.ratings == s.ratings
    ensures Valid(s) ==> Valid(s')
  {
    var rows := seq(|s.products|, i requires 0 <= i < |s.products| =>
      if s.products[i].id == id then ApplyPatch(s.products[i], patch) else s.products[i]);
    var s' := s.(products := rows);
    UpdateKeepsValid(s, s');
    s'
  }

  /** Rewriting product rows in place without touching their ids keeps the store valid. */
  lemma UpdateKeepsValid(s: Store, s': Store)
    requires s' == s.(products := s'.products)
    requires |s'.products| == |s.products|
    requires forall i :: 0 <= i < |s.products| ==> s'.products[i].id == s.products[i].id
    ensures Valid(s) ==> Valid(s')
  {
    if Valid(s) {
      assert ProductIds(s') == ProductIds(s) by {
        forall k | k in ProductIds(s) ensures k in ProductIds(s') {
          var p :| p in s.products && p.id == k;
          var i :| 0 <= i < |s.products| && s.products[i] == p;
          assert s'.products[i] in s'.products;
        }
        forall k | k in ProductIds(s') ensures k in ProductIds(s) {
          var p :| p in s'.products && p.id == k;
          var i :| 0 <= i < |s'.products| && s'.products[i] == p;
          assert s.products[i] in s.products;
        }
      }
      forall i, j | 0 <= i < j < |s'.products|
        ensures ProductId(s'.products[i]) != ProductId(s'.products[j])
      {
        assert ProductId(s.products[i]) != ProductId(s.products[j]);
      }
      forall p | p in s'.products ensures p.id < s'.nextProductId {
        var i :| 0 <= i < |s'.products| && s'.products[i] == p;
        assert s.products[i] in s.products;
      }
    }
  }

  /** An update of an id no row has changes nothing. */
  lemma UpdateUnknownIdIsNoop(s: Store, id: int, patch: ProductPatch)
    requires forall row :: row in s.products ==> row.id != id
    ensures UpdateProduct(s, id, patch) == s
  {
    var s' := UpdateProduct(s, id, patch);
    assert forall i :: 0 <= i < |s.products| ==> s.products[i] in s.products;
    assert s'.products == s.products;
  }

  /** Applying the same patch twice is applying it once. */
  lemma UpdateIdempotent(s: Store, id: int, patch: ProductPatch)
    ensures UpdateProduct(UpdateProduct(s, id, patch), id, patch) == UpdateProduct(s, id, patch)
  {
    var once := UpdateProduct(s, id, patch);
    var twice := UpdateProduct(once, id, patch);
    assert twice.products == once.products;
  }

  /**
   * `deleteProduct`: removes the row with that id, and through the cascades
   * its comments and ratings; users and sessions are untouched. In a valid
   * store an unknown id deletes nothing at all.
   */
  function DeleteProduct(s: Store, id: int): (s': Store)
    ensures forall p :: p in s'.products <==> p in s.products && p.id != id
    ensures forall c :: c in s'.comments <==> c in s.comments && c.productId != id
    ensures forall r :: r in s'.ratings <==> r in s.ratings && r.productId != id
    ensures s'.users == s.users && s'.sessions == s.sessions
    ensures Valid(s) ==> Valid(s')
    ensures Valid(s) && (forall p :: p in s.products ==> p.id != id) ==> s' == s
  {
    DeleteUnknownProduct(s, id);
    DeleteProductCascade(s, id)
  }

  lemma DeleteUnknownProduct(s: Store, id: int)
    ensures Valid(s) && (forall p :: p in s.products ==> p.id != id) ==> DeleteProductCascade(s, id) == s
  {
    if Valid(s) && (forall p :: p in s.products ==> p.id != id) {
      assert id !in ProductIds(s);
      FilterKeepsAll(s.products, (p: ProductRow) => p.id != id);
      forall i | 0 <= i < |s.comments| ensures s.comments[i].productId != id {
        assert s.comments[i] in s.comments;
      }
      FilterKeepsAll(s.comments, (c: CommentRow) => c.productId != id);
      forall i | 0 <= i < |s.ratings| ensures s.ratings[i].productId != id {
        assert s.ratings[i] in s.ratings;
      }
      FilterKeepsAll(s.ratings, (r: RatingRow) => r.productId != id);
    }
  }
}

=== FILE: products_route.dfy ===
/**
 * `GET /api/products` (`src/app/api/products/route.ts`): chooses one of the
 * three listings from the query string. A non-empty `category` wins; else a
 * non-empty `query` searches names; else every product is listed. A missing
 * parameter and an empty one are the same to the truthiness tests.
 */
module ProductsRoute {
  import opened Common
  import opened Schema
  import opened Http
  import ProductService
  import Text

  /** Which listing a request reaches. */
  datatype Listing = ByCategory(category: string) | Search(query: string) | All

  /** The dispatch rule. */
  function Dispatch(category: Option<string>, query: Option<string>): (l: Listing)
    ensures Truthy(category) <==> l.ByCategory?
    ensures l.ByCategory? ==> l.category == category.value
    ensures l.Search? <==> !Truthy(category) && Truthy(query)
    ensures l.Search? ==> l.query == query.value
  {
    if Truthy(category) then ByCategory(category.value)
    else if Truthy(query) then Search(query.value)
    else All
  }

  /**
   * The handler: 200 with the chosen listing. Under a category every product
   * listed has it and every product having it is listed; under a search every
   * product listed has the query in its title and every such product is
   * listed; otherwise it is the full listing.
   */
  function Get(s: Store, category: Option<string>, query: Option<string>): (r: Response<seq<ProductService.Product>>)
    ensures r.status == OK && r.body.Payload? && r.setCookie == None
    ensures Truthy(category) ==>
      && (forall p :: p in r.body.value ==> p.category == category.value)
      && (forall row :: row in s.products && row.category == category.value ==> ProductService.View(s, row) in r.body.value)
    ensures !Truthy(category) && Truthy(query) ==>
      && (forall p :: p in r.body.value ==> Text.Contains(p.title, query.value))
      && (forall row :: row in s.products && Text.Contains(row.name, query.value) ==> ProductService.View(s, row) in r.body.value)
    ensures !Truthy(category) && !Truthy(query) ==> r.body.value == ProductService.GetAllProducts(s)
  {
    var products :=
      match Dispatch(category, query)
      case ByCategory(c) => ProductService.GetProductsByCategory(s, c)
      case Search(q) => ProductService.SearchProducts(s, q)
      case All => ProductService.GetAllProducts(s);
    Response(OK, Payload(products), None)
  }

  /** A non-empty category makes the query irrelevant. */
  lemma CategoryWinsOverQuery(s: Store, category: string, q1: Option<string>, q2: Option<string>)
    requires category != ""
    ensures Get(s, Some(category), q1) == Get(s, Some(category), q2)
  {
  }

  /** An empty parameter is treated as a missing one. */
  lemma EmptyParameterIsAbsent(s: Store, category: Option<string>, query: Option<string>)
    ensures Get(s, Some(""), query) == Get(s, None, query)
    ensures Get(s, category, Some("")) == Get(s, category, None)
  {
  }

  /** Whatever the parameters, the answer is the full listing filtered on what they select. */
  lemma GetIsFilteredListing(s: Store, category: Option<string>, query: Option<string>)
    ensures var all := ProductService.GetAllProducts(s);
      Get(s, category, query).body.value ==
        match Dispatch(category, query)
        case ByCategory(c) => Filter(all, (p: ProductService.Product) => p.category == c)
        case Search(q) => Filter(all, (p: ProductService.Product) => Text.Contains(p.title, q))
        case All => all
  {
    match Dispatch(category, query)
    case ByCategory(c) => ProductService.ByCategoryIsFilteredListing(s, c);
    case Search(q) => ProductService.SearchIsFilteredListing(s, q);
    case All =>
  }
}

=== FILE: schema.dfy ===
/**
 * The relational store of `src/db/schema.ts`: one row type per table, the
 * store as an immutable record of row sequences with its auto-increment
 * counters, the constraints the schema declares (primary keys, the unique
 * email, foreign keys with cascading deletes, the role default) and the
 * primitive inserts and deletes the services issue.
 */
module Schema {
  import opened Common

  /** A `users` row. `password` holds whatever the inserting code stored there. */
  datatype UserRow = UserRow(id: int, name: string, email: string, password: string, role: string)

  /** A `sessions` row: an opaque token owned by a user, valid until `expiresAt` (clock seconds). */
  datatype SessionRow = SessionRow(id: string, userId: int, expiresAt: int)

  /** A `products` row. `price` is the `decimal(10, 2)` column in whole cents. */
  datatype ProductRow = ProductRow(
    id: int, name: string, description: Option<string>, price: int,
    category: string, image: Option<string>)

  /** A `comments` row. */
  datatype CommentRow = CommentRow(id: int, productId: int, userId: int, content: string)

  /** A `ratings` row. The 1-5 range of `rating` is a comment in the schema, not a constraint. */
  datatype RatingRow = RatingRow(id: int, productId: int, userId: int, rating: int)

  /** The five tables in row order, and the next value of each auto-increment column. */
  datatype Store = Store(
    users: seq<UserRow>,
    sessions: seq<SessionRow>,
    products: seq<ProductRow>,
    comments: seq<CommentRow>,
    ratings: seq<RatingRow>,
    nextUserId: int,
    nextProductId: int,
    nextCommentId: int,
    nextRatingId: int)

  /** The outcome of a service call: what it returned or threw, and the store afterwards. */
  datatype Step<+T> = Step(result: Result<T>, store: Store)

  /** `users.role` defaults to this when an insert leaves it out. */
  const DEFAULT_ROLE: string := "user"

  /** A freshly created database: no rows, every counter at its first value. */
  function EmptyStore(): (s: Store)
    ensures Valid(s)
  {
    Store([], [], [], [], [], 1, 1, 1, 1)
  }

  function UserId(u: UserRow): int { u.id }
  function UserEmail(u: UserRow): string { u.email }
  function SessionId(x: SessionRow): string { x.id }
  function ProductId(p: ProductRow): int { p.id }
  function CommentId(c: CommentRow): int { c.id }
  function RatingId(r: RatingRow): int { r.id }

  function UserIds(s: Store): set<int> { set u | u in s.users :: u.id }
  function ProductIds(s: Store): set<int> { set p | p in s.products :: p.id }

  predicate EmailTaken(s: Store, email: string) {
    exists u :: u in s.users && u.email == email
  }

  predicate SessionIdTaken(s: Store, id: string) {
    exists x :: x in s.sessions && x.id == id
  }

  /**
   * What the database guarantees of its contents: primary keys and the email
   * are unique, auto-increment counters are ahead of every id, and every
   * foreign key points at an existing parent row.
   */
  ghost predicate Valid(s: Store) {
    && UniqueBy(s.users, UserId)
    && UniqueBy(s.users, UserEmail)
    && UniqueBy(s.sessions, SessionId)
    && UniqueBy(s.products, ProductId)
    && UniqueBy(s.comments, CommentId)
    && UniqueBy(s.ratings, RatingId)
    && (forall u :: u in s.users ==> u.id < s.nextUserId)
    && (forall p :: p in s.products ==> p.id < s.nextProductId)
    && (forall c :: c in s.comments ==> c.id < s.nextCommentId)
    && (forall r :: r in s.ratings ==> r.id < s.nextRatingId)
    && (forall x :: x in s.sessions ==> x.userId in UserIds(s))
    && (forall c :: c in s.comments ==> c.userId in UserIds(s) && c.productId in ProductIds(s))
    && (forall r :: r in s.ratings ==> r.userId in UserIds(s) && r.productId in ProductIds(s))
  }

  /** `select * from users where email = ?`, first row. */
  function UserByEmail(s: Store, email: string): (r: Option<UserRow>)
    ensures r.None? <==> !EmailTaken(s, email)
    ensures r.Some? ==> r.value in s.users && r.value.email == email
  {
    var m := Filter(s.users, (u: UserRow) => u.email == email);
    assert EmailTaken(s, email) ==> |m| > 0 by {
      if EmailTaken(s, email) {
        var u :| u in s.users && u.email == email;
        assert u in m;
      }
    }
    assert |m| > 0 ==> EmailTaken(s, email) by {
      if |m| > 0 {
        assert m[0] in m;
      }
    }
    First(m)
  }

  /** `select * from users where id = ?`, first row. */
  function UserById(s: Store, id: int): (r: Option<UserRow>)
    ensures r.None? <==> id !in UserIds(s)
    ensures r.Some? ==> r.value in s.users && r.value.id == id
  {
    var m := Filter(s.users, (u: UserRow) => u.id == id);
    assert id in UserIds(s) ==> |m| > 0 by {
      if id in UserIds(s) {
        var u :| u in s.users && u.id == id;
        assert u in m;
      }
    }
    assert |m| > 0 ==> id in UserIds(s) by {
      if |m| > 0 {
        assert m[0] in m;
      }
    }
    First(m)
  }

  /** `select * from sessions where id = ?`, first row. */
  function SessionById(s: Store, id: string): (r: Option<SessionRow>)
    ensures r.None? <==> !SessionIdTaken(s, id)
    ensures r.Some? ==> r.value in s.sessions && r.value.id == id
  {
    var m := Filter(s.sessions, (x: SessionRow) => x.id == id);
    assert SessionIdTaken(s, id) ==> |m| > 0 by {
      if SessionIdTaken(s, id) {
        var x :| x in s.sessions && x.id == id;
        assert x in m;
      }
    }
    assert |m| > 0 ==> SessionIdTaken(s, id) by {
      if |m| > 0 {
        assert m[0] in m;
      }
    }
    First(m)
  }

  /** Two rows with one key value are the same row, in a table whose key is unique. */
  lemma UniqueKeyDetermines<T, K>(xs: seq<T>, key: T -> K, a: T, b: T)
    requires UniqueBy(xs, key)
    requires a in xs && b in xs && key(a) == key(b)
    ensures a == b
  {
    var i :| 0 <= i < |xs| && xs[i] == a;
    var j :| 0 <= j < |xs| && xs[j] == b;
    assert key(xs[i]) == key(xs[j]);
    assert i == j;
  }

  /** In a valid store, the unique index on `email` makes a user's email identify the user. */
  lemma EmailIdentifiesUser(s: Store)
    ensures Valid(s) ==> forall a, b :: a in s.users && b in s.users && a.email == b.email ==> a == b
  {
    if Valid(s) {
      forall a, b | a in s.users && b in s.users && a.email == b.email ensures a == b {
        UniqueKeyDetermines(s.users, UserEmail, a, b);
      }
    }
  }

  /** In a valid store, a session token identifies the session. */
  lemma TokenIdentifiesSession(s: Store)
    ensures Valid(s) ==> forall a, b :: a in s.sessions && b in s.sessions && a.id == b.id ==> a == b
  {
    if Valid(s) {
      forall a, b | a in s.sessions && b in s.sessions && a.id == b.id ensures a == b {
        UniqueKeyDetermines(s.sessions, SessionId, a, b);
      }
    }
  }

  /** In a valid store, a user id identifies the user. */
  lemma IdIdentifiesUser(s: Store)
    ensures Valid(s) ==> forall a, b :: a in s.users && b in s.users && a.id == b.id ==> a == b
  {
    if Valid(s) {
      forall a, b | a in s.users && b in s.users && a.id == b.id ensures a == b {
        UniqueKeyDetermines(s.users, UserId, a, b);
      }
    }
  }

  /** In a valid store, a product id identifies the product row. */
  lemma ProductIdIdentifiesRow(s: Store)
    ensures Valid(s) ==> forall a, b :: a in s.products && b in s.products && a.id == b.id ==> a == b
  {
    if Valid(s) {
      forall a, b | a in s.products && b in s.products && a.id == b.id ensures a == b {
        UniqueKeyDetermines(s.products, ProductId, a, b);
      }
    }
  }

  /**
   * `insert into users (email, password, name)`: the unique index on `email`
   * rejects a second row with the same email; otherwise the new row gets the
   * next auto-increment id and the default role.
   */
  function InsertUser(s: Store, email: string, name: string, password: string): (r: Result<Store>)
    ensures r.Err? <==> EmailTaken(s, email)
    ensures r.Err? ==> r.error == DuplicateEntry("users.email")
    ensures r.Ok? ==> |r.value.users| == |s.users| + 1 && r.value.users[..|s.users|] == s.users
    ensures r.Ok? ==> var u := r.value.users[|s.users|];
      u.id == s.nextUserId && u.email == email && u.name == name
      && u.password == password && u.role == DEFAULT_ROLE
    ensures r.Ok? ==> (r.value.sessions == s.sessions && r.value.products == s.products
      && r.value.comments == s.comments && r.value.ratings == s.ratings)
    ensures Valid(s) && r.Ok? ==> Valid(r.value)
  {
    if EmailTaken(s, email) then Err(DuplicateEntry("users.email"))
    else
      var u := UserRow(s.nextUserId, name, email, password, DEFAULT_ROLE);
      var s' := s.(users := s.users + [u], nextUserId := s.nextUserId + 1);
      assert s'.users[..|s.users|] == s.users;
      InsertUserValid(s, u, s');
      Ok(s')
  }

  lemma InsertUserValid(s: Store, u: UserRow, s': Store)
    requires !EmailTaken(s, u.email) && u.id == s.nextUserId
    requires s' == s.(users := s.users + [u], nextUserId := s.nextUserId + 1)
    ensures Valid(s) ==> Valid(s')
  {
    if Valid(s) {
      AppendUniqueBy(s.users, u, UserId);
      AppendUniqueBy(s.users, u, UserEmail);
      assert UserIds(s) <= UserIds(s');
    }
  }

  /**
   * `insert into sessions (id, user_id, expires_at)`: the primary key rejects
   * a token already present, the foreign key an owner that does not exist.
   */
  function InsertSession(s: Store, id: string, userId: int, expiresAt: int): (r: Result<Store>)
    ensures r.Err? <==> SessionIdTaken(s, id) || userId !in UserIds(s)
    ensures SessionIdTaken(s, id) ==> r == Err(DuplicateEntry("sessions.PRIMARY"))
    ensures r.Ok? ==> r.value == s.(sessions := s.sessions + [SessionRow(id, userId, expiresAt)])
    ensures Valid(s) && r.Ok? ==> Valid(r.value)
  {
    if SessionIdTaken(s, id) then Err(DuplicateEntry("sessions.PRIMARY"))
    else if userId !in UserIds(s) then Err(MissingReference("sessions.user_id"))
    else
      var x := SessionRow(id, userId, expiresAt);
      var s' := s.(sessions := s.sessions + [x]);
      InsertSessionValid(s, x, s');
      Ok(s')
  }

  lemma InsertSessionValid(s: Store, x: SessionRow, s': Store)
    requires !SessionIdTaken(s, x.id) && x.userId in UserIds(s)
    requires s' == s.(sessions := s.sessions + [x])
    ensures Valid(s) ==> Valid(s')
  {
    if Valid(s) {
      AppendUniqueBy(s.sessions, x, SessionId);
    }
  }

  /**
   * `insert into comments (product_id, user_id, content)`: both foreign keys
   * must name existing rows; the new row gets the next serial id.
   */
  function InsertComment(s: Store, productId: int, userId: int, content: string): (r: Result<Store>)
    ensures r.Err? <==> productId !in ProductIds(s) || userId !in UserIds(s)
    ensures r.Err? ==> r.error.MissingReference?
    ensures r.Ok? ==> r.value == s.(
      comments := s.comments + [CommentRow(s.nextCommentId, productId, userId, content)],
      nextCommentId := s.nextCommentId + 1)
    ensures Valid(s) && r.Ok? ==> Valid(r.value)
  {
    if productId !in ProductIds(s) then Err(MissingReference("comments.product_id"))
    else if userId !in UserIds(s) then Err(MissingReference("comments.user_id"))
    else
      var c := CommentRow(s.nextCommentId, productId, userId, content);
      var s' := s.(comments := s.comments + [c], nextCommentId := s.nextCommentId + 1);
      InsertCommentValid(s, c, s');
      Ok(s')
  }

  lemma InsertCommentValid(s: Store, c: CommentRow, s': Store)
    requires c.id == s.nextCommentId && c.productId in ProductIds(s) && c.userId in UserIds(s)
    requires s' == s.(comments := s.comments + [c], nextCommentId := s.nextCommentId + 1)
    ensures Valid(s) ==> Valid(s')
  {
    if Valid(s) {
      AppendUniqueBy(s.comments, c, CommentId);
    }
  }

  /** `insert into products`: nothing to violate; the row gets the next auto-increment id. */
  function InsertProduct(
    s: Store, name: string, description: Option<string>, price: int,
    category: string, image: Option<string>): (s': Store)
    ensures s'.products == s.products + [ProductRow(s.nextProductId, name, description, price, category, image)]
    ensures s'.nextProductId == s.nextProductId + 1
    ensures s'.users == s.users && s'.sessions == s.sessions
      && s'.comments == s.comments && s'.ratings == s.ratings
    ensures Valid(s) ==> Valid(s')
  {
    var p := ProductRow(s.nextProductId, name, description, price, category, image);
    var s' := s.(products := s.products + [p], nextProductId := s.nextProductId + 1);
    InsertProductValid(s, p, s');
    s'
  }

  lemma InsertProductValid(s: Store, p: ProductRow, s': Store)
    requires p.id == s.nextProductId
    requires s' == s.(products := s.products + [p], nextProductId := s.nextProductId + 1)
    ensures Valid(s) ==> Valid(s')
  {
    if Valid(s) {
      AppendUniqueBy(s.products, p, ProductId);
      assert ProductIds(s) <= ProductIds(s');
    }
  }

  /** `delete from sessions where id = ?`: sessions have no dependent rows. */
  function DeleteSession(s: Store, id: string): (s': Store)
    ensures forall x :: x in s'.sessions <==> x in s.sessions && x.id != id
    ensures !SessionIdTaken(s, id) ==> s' == s
    ensures s'.users == s.users && s'.products == s.products
      && s'.comments == s.comments && s'.ratings == s.ratings
    ensures Valid(s) ==> Valid(s')
  {
    var s' := s.(sessions := Filter(s.sessions, (x: SessionRow) => x.id != id));
    DeleteSessionFacts(s, id, s');
    s'
  }

  lemma DeleteSessionFacts(s: Store, id: string, s': Store)
    requires s' == s.(sessions := Filter(s.sessions, (x: SessionRow) => x.id != id))
    ensures !SessionIdTaken(s, id) ==> s' == s
    ensures Valid(s) ==> Valid(s')
  {
    if !SessionIdTaken(s, id) {
      FilterKeepsAll(s.sessions, (x: SessionRow) => x.id != id);
    }
    if Valid(s) {
      FilterUniqueBy(s.sessions, (x: SessionRow) => x.id != id, SessionId);
    }
  }

  /**
   * `delete from users where id = ?`: `sessions.user_id`, `comments.user_id`
   * and `ratings.user_id` are declared `on delete cascade`, so the user's
   * sessions, comments and ratings go with it. Products are untouched.
   */
  function DeleteUser(s: Store, id: int): (s': Store)
    ensures forall u :: u in s'.users <==> u in s.users && u.id != id
    ensures forall x :: x in s'.sessions <==> x in s.sessions && x.userId != id
    ensures forall c :: c in s'.comments <==> c in s.comments && c.userId != id
    ensures forall r :: r in s'.ratings <==> r in s.ratings && r.userId != id
    ensures s'.products == s.products
    ensures Valid(s) ==> Valid(s')
  {
    var s' := s.(
      users := Filter(s.users, (u: UserRow) => u.id != id),
      sessions := Filter(s.sessions, (x: SessionRow) => x.userId != id),
      comments := Filter(s.comments, (c: CommentRow) => c.userId != id),
      ratings := Filter(s.ratings, (r: RatingRow) => r.userId != id));
    DeleteUserValid(s, id, s');
    s'
  }

  lemma DeleteUserValid(s: Store, id: int, s': Store)
    requires s' == s.(
      users := Filter(s.users, (u: UserRow) => u.id != id),
      sessions := Filter(s.sessions, (x: SessionRow) => x.userId != id),
      comments := Filter(s.comments, (c: CommentRow) => c.userId != id),
      ratings := Filter(s.ratings, (r: RatingRow) => r.userId != id))
    ensures Valid(s) ==> Valid(s')
  {
    if Valid(s) {
      FilterUniqueBy(s.users, (u: UserRow) => u.id != id, UserId);
      FilterUniqueBy(s.users, (u: UserRow) => u.id != id, UserEmail);
      FilterUniqueBy(s.sessions, (x: SessionRow) => x.userId != id, SessionId);
      FilterUniqueBy(s.comments, (c: CommentRow) => c.userId != id, CommentId);
      FilterUniqueBy(s.ratings, (r: RatingRow) => r.userId != id, RatingId);
      SurvivingUserIds(s, id, s');
      assert forall x :: x in s'.sessions ==> x.userId in UserIds(s') by {
        forall x | x in s'.sessions ensures x.userId in UserIds(s') {
          assert x in s.sessions && x.userId != id;
        }
      }
      assert forall c :: c in s'.comments ==> c.userId in UserIds(s') && c.productId in ProductIds(s') by {
        forall c | c in s'.comments ensures c.userId in UserIds(s') && c.productId in ProductIds(s') {
          assert c in s.comments && c.userId != id;
        }
      }
      assert forall r :: r in s'.ratings ==> r.userId in UserIds(s') && r.productId in ProductIds(s') by {
        forall r | r in s'.ratings ensures r.userId in UserIds(s') && r.productId in ProductIds(s') {
          assert r in s.ratings && r.userId != id;
        }
      }
    }
  }

  /** The owners that survive a user delete are still present afterwards. */
  lemma SurvivingUserIds(s: Store, id: int, s': Store)
    requires forall u :: u in s'.users <==> u in s.users && u.id != id
    ensures forall k :: k in UserIds(s) && k != id ==> k in UserIds(s')
  {
    forall k | k in UserIds(s) && k != id ensures k in UserIds(s') {
      var u :| u in s.users && u.id == k;
      assert u in s'.users;
    }
  }

  /**
   * `delete from products where id = ?`: `comments.product_id` and
   * `ratings.product_id` are declared `on delete cascade`, so the product's
   * comments and ratings go with it. Users and sessions are untouched.
   */
  function DeleteProductCascade(s: Store, id: int): (s': Store)
    ensures forall p :: p in s'.products <==> p in s.products && p.id != id
    ensures forall c :: c in s'.comments <==> c in s.comments && c.productId != id
    ensures forall r :: r in s'.ratings <==> r in s.ratings && r.productId != id
    ensures s'.users == s.users && s'.sessions == s.sessions
    ensures Valid(s) ==> Valid(s')
  {
    var s' := s.(
      products := Filter(s.products, (p: ProductRow) => p.id != id),
      comments := Filter(s.comments, (c: CommentRow) => c.productId != id),
      ratings := Filter(s.ratings, (r: RatingRow) => r.productId != id));
    DeleteProductValid(s, id, s');
    s'
  }

  lemma DeleteProductValid(s: Store, id: int, s': Store)
    requires s' == s.(
      products := Filter(s.products, (p: ProductRow) => p.id != id),
      comments := Filter(s.comments, (c: CommentRow) => c.productId != id),
      ratings := Filter(s.ratings, (r: RatingRow) => r.productId != id))
    ensures Valid(s) ==> Valid(s')
  {
    if Valid(s) {
      FilterUniqueBy(s.products, (p: ProductRow) => p.id != id, ProductId);
      FilterUniqueBy(s.comments, (c: CommentRow) => c.productId != id, CommentId);
      FilterUniqueBy(s.ratings, (r: RatingRow) => r.productId != id, RatingId);
      SurvivingProductIds(s, id, s');
      assert s'.users == s.users;
    }
  }

  /** The products that survive a product delete are still present afterwards. */
  lemma SurvivingProductIds(s: Store, id: int, s': Store)
    requires forall p :: p in s'.products <==> p in s.products && p.id != id
    ensures forall k :: k in ProductIds(s) && k != id ==> k in ProductIds(s')
  {
    forall k | k in ProductIds(s) && k != id ensures k in ProductIds(s') {
      var p :| p in s.products && p.id == k;
      assert p in s'.products;
    }
  }
}

=== FILE: signin_route.dfy ===
/**
 * `POST /api/auth/signin` (`src/app/api/auth/signin/route.ts`): a presence
 * check on email and password, then `signIn`; on success the user is
 * returned and the session token is set as a cookie that lives as long as
 * the session row. Errors are mapped by message: the route maps the message
 * `Invalid credentials` to 401, but `signIn` throws `Invalid email or
 * password`, so a rejected sign-in answers 500. The route as written is
 * `Post`; `PostIntended` is the same handler comparing against the message
 * the service actually throws.
 */
module SigninRoute {
  import opened Common
  import opened Schema
  import opened Http
  import Text
  import AuthService

  const MISSING_FIELDS: string := "Email and password are required"
  const FAILED: string := "Failed to sign in"

  /** The message the route's `catch` compares against. */
  const ROUTE_INVALID_CREDENTIALS: string := "Invalid credentials"

  /** The error text the route itself answers 401 with from its `catch`. */
  const WRONG_CREDENTIALS_REPLY: string := "Invalid email or password"

  /** The cookie's `Max-Age`: seven days, in seconds. */
  const MAX_AGE: int := 7 * 24 * 60 * 60

  /**
   * The fields destructured from the parsed body; a field may be missing.
   * The body is `None` for invalid JSON or `null`, which cannot be
   * destructured; any other non-object value is a `SigninBody` with both
   * fields missing.
   */
  datatype SigninBody = SigninBody(email: Option<string>, password: Option<string>)

  /** The `Set-Cookie` value carrying the session token: the token is read back right after `session_id=`. */
  function SessionCookie(sessionId: string): (c: string)
    ensures |c| > 11 + |sessionId|
    ensures c[..11] == "session_id=" && c[11..11 + |sessionId|] == sessionId && c[11 + |sessionId|] == ';'
  {
    var head := "session_id=" + sessionId;
    var attributes := "; Path=/; HttpOnly; SameSite=Lax; Max-Age=" + Text.DecimalString(MAX_AGE);
    assert attributes[0] == ';';
    assert (head + attributes)[..|head|] == head;
    head + attributes
  }

  /** The cookie expires with the session: its `Max-Age` is the service's session lifetime, 604800 seconds. */
  lemma CookieLivesAsLongAsSession(sessionId: string)
    ensures MAX_AGE == AuthService.SESSION_LIFETIME
    ensures SessionCookie(sessionId) == "session_id=" + sessionId + "; Path=/; HttpOnly; SameSite=Lax; Max-Age=604800"
  {
    assert Text.NatString(6) == "6";
    assert Text.NatString(60) == "60";
    assert Text.NatString(604) == "604";
    assert Text.NatString(6048) == "6048";
    assert Text.NatString(60480) == "60480";
    assert Text.NatString(604800) == "604800";
  }

  /** `email && password`. */
  predicate Present(d: SigninBody) {
    Truthy(d.email) && Truthy(d.password)
  }

  /** No user has this email and a password that verifies against the given one. */
  predicate Rejected(s: Store, email: string, password: string, crypto: AuthService.Crypto) {
    forall u :: u in s.users && u.email == email ==> !crypto.verify(password, u.password)
  }

  /**
   * The handler, with the message its `catch` maps to 401 as a parameter.
   * A `signIn` that returns an empty token (a generator that produced `""`)
   * is the only way to the `!user || !sessionId` branch.
   */
  function Handle(
    s: Store, body: Option<SigninBody>, now: int, sessionId: string, crypto: AuthService.Crypto, matched: string)
    : (x: Exchange<AuthService.PublicUser>)
    ensures body.None? ==> x == Exchange(Failure(SERVER_ERROR, FAILED), s)
    ensures body.Some? && !Present(body.value) ==> x == Exchange(Failure(BAD_REQUEST, MISSING_FIELDS), s)
    ensures x.response.status == OK ==>
      exists u ::
        && u in s.users && u.email == body.value.email.value
        && crypto.verify(body.value.password.value, u.password)
        && sessionId != ""
        && x.response == Response(OK, Payload(AuthService.WithoutPassword(u)), Some(SessionCookie(sessionId)))
        && x.store == s.(sessions := s.sessions + [SessionRow(sessionId, u.id, now + AuthService.SESSION_LIFETIME)])
    ensures x.response.status == UNAUTHORIZED && x.response.body != ErrorJson(WRONG_CREDENTIALS_REPLY) ==>
      sessionId == "" && x.response.body == ErrorJson(ROUTE_INVALID_CREDENTIALS)
    ensures x.response.status != OK && x.response.body != ErrorJson(ROUTE_INVALID_CREDENTIALS) ==> x.store == s
    ensures x.response.status in {OK, BAD_REQUEST, UNAUTHORIZED, SERVER_ERROR}
    ensures Valid(s) ==> Valid(x.store)
  {
    if body.None? then Exchange(Failure(SERVER_ERROR, FAILED), s)
    else if !Present(body.value) then Exchange(Failure(BAD_REQUEST, MISSING_FIELDS), s)
    else
      var out := AuthService.SignIn(
        s, AuthService.SignInData(body.value.email.value, body.value.password.value), now, sessionId, crypto);
      match out.result
      case Err(e) =>
        if e.Message() == matched then Exchange(Failure(UNAUTHORIZED, WRONG_CREDENTIALS_REPLY), out.store)
        else Exchange(Failure(SERVER_ERROR, FAILED), out.store)
      case Ok(r) =>
        if r.sessionId == "" then Exchange(Failure(UNAUTHORIZED, ROUTE_INVALID_CREDENTIALS), out.store)
        else Exchange(Response(OK, Payload(r.user), Some(SessionCookie(r.sessionId))), out.store)
  }

  /** The route as written: its `catch` looks for `Invalid credentials`. */
  function Post(s: Store, body: Option<SigninBody>, now: int, sessionId: string, crypto: AuthService.Crypto)
    : (x: Exchange<AuthService.PublicUser>)
    ensures x.response.status == UNAUTHORIZED ==> sessionId == "" && x.response.body == ErrorJson(ROUTE_INVALID_CREDENTIALS)
    ensures x.response.status != OK && x.response.status != UNAUTHORIZED ==> x.store == s
  {
    UnmatchedMessage(s, body, now, sessionId, crypto);
    Handle(s, body, now, sessionId, crypto, ROUTE_INVALID_CREDENTIALS)
  }

  /** `signIn` never throws `Invalid credentials`: neither its own messages nor the store's are that text. */
  lemma UnmatchedMessage(s: Store, body: Option<SigninBody>, now: int, sessionId: string, crypto: AuthService.Crypto)
    ensures body.Some? && Present(body.value) ==>
      var out := AuthService.SignIn(
        s, AuthService.SignInData(body.value.email.value, body.value.password.value), now, sessionId, crypto);
      out.result.Err? ==> out.result.error.Message() != ROUTE_INVALID_CREDENTIALS
  {
    if body.Some? && Present(body.value) {
      var out := AuthService.SignIn(
        s, AuthService.SignInData(body.value.email.value, body.value.password.value), now, sessionId, crypto);
      if out.result.Err? {
        var e := out.result.error;
        if e.Thrown? {
          assert e.text == AuthService.INVALID_CREDENTIALS;
          assert AuthService.INVALID_CREDENTIALS[8] != ROUTE_INVALID_CREDENTIALS[8];
        } else {
          assert e.Message()[0] != ROUTE_INVALID_CREDENTIALS[0];
        }
      }
    }
  }

  /** As written, an unknown email or a wrong password answers 500, not 401, and leaves the store as it was. */
  lemma BadCredentialsGive500(
    s: Store, email: string, password: string, now: int, sessionId: string, crypto: AuthService.Crypto)
    requires Valid(s) && email != "" && password != ""
    requires Rejected(s, email, password, crypto)
    ensures Post(s, Some(SigninBody(Some(email), Some(password))), now, sessionId, crypto)
      == Exchange(Failure(SERVER_ERROR, FAILED), s)
  {
    var out := AuthService.SignIn(s, AuthService.SignInData(email, password), now, sessionId, crypto);
    assert out == Step(Err(Thrown(AuthService.INVALID_CREDENTIALS)), s) by {
      if EmailTaken(s, email) {
        var u :| u in s.users && u.email == email;
      }
    }
    assert AuthService.INVALID_CREDENTIALS[8] != ROUTE_INVALID_CREDENTIALS[8];
  }

  /** The route with its `catch` matching the message `signIn` throws. */
  function PostIntended(s: Store, body: Option<SigninBody>, now: int, sessionId: string, crypto: AuthService.Crypto)
    : (x: Exchange<AuthService.PublicUser>)
    ensures x.response.status != OK && x.response.body != ErrorJson(ROUTE_INVALID_CREDENTIALS) ==> x.store == s
  {
    Handle(s, body, now, sessionId, crypto, AuthService.INVALID_CREDENTIALS)
  }

  /** With the message matched, an unknown email or a wrong password answers 401 and leaves the store as it was. */
  lemma IntendedBadCredentialsGive401(
    s: Store, email: string, password: string, now: int, sessionId: string, crypto: AuthService.Crypto)
    requires Valid(s) && email != "" && password != ""
    requires Rejected(s, email, password, crypto)
    ensures PostIntended(s, Some(SigninBody(Some(email), Some(password))), now, sessionId, crypto)
      == Exchange(Failure(UNAUTHORIZED, WRONG_CREDENTIALS_REPLY), s)
  {
    var out := AuthService.SignIn(s, AuthService.SignInData(email, password), now, sessionId, crypto);
    assert out == Step(Err(Thrown(AuthService.INVALID_CREDENTIALS)), s) by {
      if EmailTaken(s, email) {
        var u :| u in s.users && u.email == email;
      }
    }
  }

  /** With matching credentials and an unused, non-empty token, both versions answer 200 with the cookie. */
  lemma GoodCredentialsGive200(
    s: Store, u: UserRow, password: string, now: int, sessionId: string, crypto: AuthService.Crypto)
    requires Valid(s) && u in s.users && u.email != "" && password != ""
    requires crypto.verify(password, u.password)
    requires sessionId != "" && !SessionIdTaken(s, sessionId)
    ensures var body := Some(SigninBody(Some(u.email), Some(password)));
      && Post(s, body, now, sessionId, crypto).response
        == Response(OK, Payload(AuthService.WithoutPassword(u)), Some(SessionCookie(sessionId)))
      && PostIntended(s, body, now, sessionId, crypto) == Post(s, body, now, sessionId, crypto)
  {
    var out := AuthService.SignIn(s, AuthService.SignInData(u.email, password), now, sessionId, crypto);
    EmailIdentifiesUser(s);
    assert out.result.Ok?;
  }
}

=== FILE: signup_route.dfy ===
/**
 * `POST /api/auth/signup` (`src/app/api/auth/signup/route.ts`): three input
 * checks in a fixed order — all fields present, the email's shape, the
 * password's length — and the first that fails decides a 400; then
 * `signUp`, whose duplicate-email error becomes 409 and every other failure
 * 500. A `null` body or one that is not JSON throws before any check and
 * lands in the same 500; any other JSON value that is not an object (a
 * string, a number, `true`, an array) simply lacks the fields and gets the
 * missing-fields 400.
 */
module SignupRoute {
  import opened Common
  import opened Schema
  import opened Http
  import Text
  import AuthService

  const MISSING_FIELDS: string := "Email, password, and name are required"
  const BAD_EMAIL: string := "Invalid email format"
  const SHORT_PASSWORD: string := "Password must be at least 6 characters long"
  const FAILED: string := "Failed to create user"

  /** Shortest accepted password, in UTF-16 code units. */
  const MIN_PASSWORD_LENGTH: nat := 6

  /**
   * The fields read from the parsed body; a field may be missing. The body
   * is `None` for invalid JSON or `null`, whose fields cannot be read; any
   * other non-object value is a `SignupBody` with every field missing.
   */
  datatype SignupBody = SignupBody(email: Option<string>, password: Option<string>, name: Option<string>)

  /** `[^\s@]`. */
  predicate EmailChar(c: char) {
    !Text.IsJsWhitespace(c) && c != '@'
  }

  /** `s[lo..hi]` is a non-empty run of `[^\s@]`. */
  predicate Run(s: string, lo: int, hi: int) {
    0 <= lo < hi <= |s| && forall k :: lo <= k < hi ==> EmailChar(s[k])
  }

  /** The pattern matches `s` with its `@` at index `at` and its `\.` at index `dot`. */
  predicate MatchesWith(s: string, at: int, dot: int) {
    && 0 <= at < dot < |s|
    && Run(s, 0, at) && s[at] == '@' && Run(s, at + 1, dot) && s[dot] == '.' && Run(s, dot + 1, |s|)
  }

  /** `/^[^\s@]+@[^\s@]+\.[^\s@]+$/.test(s)`: some way of placing the `@` and the `.` matches. */
  predicate EmailPattern(s: string)
    ensures EmailPattern(s) ==> 5 <= |s|
  {
    exists at, dot | 0 <= at < dot < |s| :: MatchesWith(s, at, dot)
  }

  /** No `\s` character anywhere in `s`. */
  predicate NoWhitespace(s: string) {
    forall k :: 0 <= k < |s| ==> !Text.IsJsWhitespace(s[k])
  }

  /** `s` has an `@` at `at` and at no other index. */
  predicate OnlyAt(s: string, at: int) {
    0 <= at < |s| && s[at] == '@' && forall k :: 0 <= k < |s| && k != at ==> s[k] != '@'
  }

  /**
   * What the pattern accepts, stated without it: no whitespace, exactly one
   * `@`, not in first place, and after it a `.` that is neither right after
   * the `@` nor last.
   */
  lemma EmailPatternShape(s: string)
    ensures EmailPattern(s) <==>
      && NoWhitespace(s)
      && exists at, dot :: 0 < at && OnlyAt(s, at) && at + 1 < dot < |s| - 1 && s[dot] == '.'
  {
    if EmailPattern(s) {
      var at, dot :| 0 <= at < dot < |s| && MatchesWith(s, at, dot);
      forall k | 0 <= k < |s| ensures !Text.IsJsWhitespace(s[k]) {
        if k < at {
        } else if k == at {
        } else if k < dot {
        } else if k == dot {
        } else {
        }
      }
      assert OnlyAt(s, at);
    }
    if && NoWhitespace(s)
       && exists at, dot :: 0 < at && OnlyAt(s, at) && at + 1 < dot < |s| - 1 && s[dot] == '.'
    {
      var at, dot :| 0 < at && OnlyAt(s, at) && at + 1 < dot < |s| - 1 && s[dot] == '.';
      assert MatchesWith(s, at, dot);
    }
  }

  /** The shape check is loose: a dot straight after another one is accepted. */
  lemma DoubleDotAccepted()
    ensures EmailPattern("a@b..c")
  {
    assert MatchesWith("a@b..c", 1, 3);
  }

  /** An email with no `.` after its `@` is refused. */
  lemma NoDotAfterAtRefused(s: string, at: int)
    requires 0 <= at < |s| && s[at] == '@'
    requires forall k :: at < k < |s| ==> s[k] != '.'
    ensures !EmailPattern(s)
  {
    EmailPatternShape(s);
  }

  /** An email with no `@` at all is refused. */
  lemma NoAtRefused(s: string)
    requires forall k :: 0 <= k < |s| ==> s[k] != '@'
    ensures !EmailPattern(s)
  {
    EmailPatternShape(s);
  }

  /** An email with two `@` is refused. */
  lemma TwoAtsRefused(s: string, i: int, j: int)
    requires 0 <= i < j < |s| && s[i] == '@' && s[j] == '@'
    ensures !EmailPattern(s)
  {
    EmailPatternShape(s);
  }

  /** An email containing a `\s` character anywhere is refused. */
  lemma WhitespaceRefused(s: string, k: int)
    requires 0 <= k < |s| && Text.IsJsWhitespace(s[k])
    ensures !EmailPattern(s)
  {
    EmailPatternShape(s);
  }

  /** `data.email && data.password && data.name`. */
  predicate Present(d: SignupBody) {
    Truthy(d.email) && Truthy(d.password) && Truthy(d.name)
  }

  /** `!(data.password.length < 6)`. */
  predicate LongEnough(d: SignupBody)
    requires d.password.Some?
  {
    Text.Utf16Length(d.password.value) >= MIN_PASSWORD_LENGTH
  }

  /** All three fields are present and non-empty, the email has the pattern's shape and the password is long enough. */
  predicate Accepted(d: SignupBody) {
    Present(d) && EmailPattern(d.email.value) && LongEnough(d)
  }

  /**
   * The handler. The checks run in order and the first failure answers 400
   * without calling `signUp`; an accepted body answers 409 exactly when the
   * email is taken, else 200 with the stored row, password hash included.
   */
  function Post(s: Store, body: Option<SignupBody>, salt: string, crypto: AuthService.Crypto): (x: Exchange<UserRow>)
    ensures body.None? ==> x == Exchange(Failure(SERVER_ERROR, FAILED), s)
    ensures body.Some? && !Present(body.value) ==> x == Exchange(Failure(BAD_REQUEST, MISSING_FIELDS), s)
    ensures body.Some? && Present(body.value) && !EmailPattern(body.value.email.value) ==>
      x == Exchange(Failure(BAD_REQUEST, BAD_EMAIL), s)
    ensures body.Some? && Present(body.value) && EmailPattern(body.value.email.value) && !LongEnough(body.value) ==>
      x == Exchange(Failure(BAD_REQUEST, SHORT_PASSWORD), s)
    ensures x.response.status == BAD_REQUEST <==> body.Some? && !Accepted(body.value)
    ensures x.response.status == CONFLICT <==> body.Some? && Accepted(body.value) && EmailTaken(s, body.value.email.value)
    ensures x.response.status == OK <==> body.Some? && Accepted(body.value) && !EmailTaken(s, body.value.email.value)
    ensures x.response.status != OK ==> x.store == s && x.response.body.ErrorJson?
    ensures x.response.status == OK ==>
      var d := body.value;
      var u := UserRow(s.nextUserId, d.name.value, d.email.value, crypto.hash(d.password.value, salt), DEFAULT_ROLE);
      && x.response == Response(OK, Payload(u), None)
      && x.store == s.(users := s.users + [u], nextUserId := s.nextUserId + 1)
    ensures x.response.status in {OK, BAD_REQUEST, CONFLICT, SERVER_ERROR}
    ensures Valid(s) ==> Valid(x.store)
  {
    if body.None? then Exchange(Failure(SERVER_ERROR, FAILED), s)
    else
      var d := body.value;
      if !Present(d) then
        Exchange(Failure(BAD_REQUEST, MISSING_FIELDS), s)
      else if !EmailPattern(d.email.value) then
        Exchange(Failure(BAD_REQUEST, BAD_EMAIL), s)
      else if !LongEnough(d) then
        Exchange(Failure(BAD_REQUEST, SHORT_PASSWORD), s)
      else
        var out := AuthService.SignUp(s, AuthService.SignUpData(d.email.value, d.password.value, d.name.value), salt, crypto);
        match out.result
        case Ok(u) => Exchange(Response(OK, Payload(u), None), out.store)
        case Err(e) =>
          if e.Message() == AuthService.DUPLICATE_USER then Exchange(Failure(CONFLICT, e.Message()), out.store)
          else Exchange(Failure(SERVER_ERROR, FAILED), out.store)
  }

  /**
   * Any password of at least 6 UTF-16 units passes the length check, so an
   * astral character such as an emoji counts twice towards the minimum.
   */
  lemma LongPasswordAccepted(email: string, password: string, name: string)
    requires EmailPattern(email) && name != ""
    requires Text.Utf16Length(password) >= MIN_PASSWORD_LENGTH
    ensures Accepted(SignupBody(Some(email), Some(password), Some(name)))
  {
    assert email != "";
    assert password != "";
  }

  /** Five characters can already be long enough: `"abcd"` and one character beyond U+FFFF make six units. */
  lemma FiveCharactersWithAstralAccepted(email: string, name: string)
    requires EmailPattern(email) && name != ""
    ensures Accepted(SignupBody(Some(email), Some("abcd\U{1F600}"), Some(name)))
  {
    assert Text.Utf16Length("abcd\U{1F600}") == 6;
    LongPasswordAccepted(email, "abcd\U{1F600}", name);
  }

  /**
   * Any password shorter than 6 UTF-16 units is answered 400 without a store
   * change, whatever the other fields; with the other fields fine and the
   * password non-empty, it is the password-length 400.
   */
  lemma ShortPasswordRefused(
    s: Store, email: Option<string>, password: string, name: Option<string>, salt: string, crypto: AuthService.Crypto)
    requires Text.Utf16Length(password) < MIN_PASSWORD_LENGTH
    ensures var x := Post(s, Some(SignupBody(email, Some(password), name)), salt, crypto);
      && x.response.status == BAD_REQUEST && x.store == s
      && (Truthy(email) && Truthy(name) && password != "" && EmailPattern(email.value) ==>
            x.response == Failure(BAD_REQUEST, SHORT_PASSWORD))
  {
  }
}

=== FILE: text.dfy ===
/**
 * JavaScript string facts the boundary code depends on: what `\s` matches in
 * a regular expression, what `.length` counts, what SQL `LIKE '%q%'` accepts,
 * and how `Number.prototype.toString()` writes an integer.
 */
module Text {

  /**
   * The characters `\s` matches in an ECMAScript regular expression: the
   * WhiteSpace and LineTerminator productions (tab, vertical tab, form feed,
   * space, no-break space, zero-width no-break space, the Zs separators,
   * line feed, carriage return, line and paragraph separators).
   */
  predicate IsJsWhitespace(c: char) {
    || c == '\U{9}' || c == '\U{B}' || c == '\U{C}' || c == ' '
    || c == '\U{A0}' || c == '\U{FEFF}' || c == '\U{1680}'
    || ('\U{2000}' <= c <= '\U{200A}') || c == '\U{202F}' || c == '\U{205F}' || c == '\U{3000}'
    || c == '\U{A}' || c == '\U{D}' || c == '\U{2028}' || c == '\U{2029}'
  }

  /** `s.length`: JavaScript counts UTF-16 code units, two for a character above U+FFFF. */
  function Utf16Length(s: string): (n: nat)
    ensures |s| <= n <= 2 * |s|
    ensures (forall i :: 0 <= i < |s| ==> s[i] <= '\U{FFFF}') ==> n == |s|
  {
    if |s| == 0 then 0
    else (if s[0] <= '\U{FFFF}' then 1 else 2) + Utf16Length(s[1..])
  }

  /** `q` occurs in `s` as a contiguous run: what `LIKE '%q%'` accepts when `q` holds no wildcard (`%`, `_`) and no backslash, LIKE's escape character. */
  predicate Contains(s: string, q: string)
    decreases |s|
  {
    q <= s || (|s| > 0 && Contains(s[1..], q))
  }

  /** `q` occurs in `s` starting at index `i`. */
  predicate OccursAt(s: string, q: string, i: int) {
    0 <= i && i + |q| <= |s| && s[i..i + |q|] == q
  }

  /** `Contains` agrees with "`q` occurs in `s` at some index". */
  lemma {:induction false} ContainsIffOccurs(s: string, q: string)
    ensures Contains(s, q) <==> exists i :: OccursAt(s, q, i)
    decreases |s|
  {
    if q <= s {
      assert OccursAt(s, q, 0);
    } else if |s| == 0 {
    } else {
      ContainsIffOccurs(s[1..], q);
      if Contains(s[1..], q) {
        var i :| OccursAt(s[1..], q, i);
        OccursShift(s, q, i + 1);
      } else {
        forall i ensures !OccursAt(s, q, i) {
          if i > 0 {
            OccursShift(s, q, i);
          }
        }
      }
    }
  }

  /** An occurrence at `i > 0` is an occurrence at `i - 1` in the tail. */
  lemma OccursShift(s: string, q: string, i: int)
    requires |s| > 0 && i > 0
    ensures OccursAt(s, q, i) <==> OccursAt(s[1..], q, i - 1)
  {
    if i + |q| <= |s| {
      assert s[1..][i - 1..i - 1 + |q|] == s[i..i + |q|];
    }
  }

  /** Every string contains the empty string, so `LIKE '%%'` accepts every name. */
  lemma ContainsEmpty(s: string)
    ensures Contains(s, "")
  {
  }

  function DigitChar(d: nat): (c: char)
    requires d < 10
    ensures '0' <= c <= '9'
  {
    "0123456789"[d]
  }

  function DigitValue(c: char): nat
    requires '0' <= c <= '9'
  {
    (c as int - '0' as int) as nat
  }

  /** The decimal digits of `n`, most significant first, without leading zeros. */
  function NatString(n: nat): (s: string)
    ensures |s| > 0
    ensures forall i :: 0 <= i < |s| ==> '0' <= s[i] <= '9'
    ensures |s| > 1 ==> s[0] != '0'
  {
    if n < 10 then [DigitChar(n)] else NatString(n / 10) + [DigitChar(n % 10)]
  }

  /** `n.toString()` for an integer `n`: a minus sign for negatives, then the digits. */
  function DecimalString(n: int): (s: string)
    ensures |s| > 0
  {
    if n < 0 then "-" + NatString(-n) else NatString(n)
  }

  /** The value of a run of decimal digits. */
  function ParseNat(s: string): nat
    requires forall i :: 0 <= i < |s| ==> '0' <= s[i] <= '9'
  {
    if |s| == 0 then 0 else 10 * ParseNat(s[..|s| - 1]) + DigitValue(s[|s| - 1])
  }

  /** An optional minus sign followed by decimal digits. */
  predicate IsDecimalText(s: string) {
    |s| > 0 && forall i :: (if s[0] == '-' then 1 else 0) <= i < |s| ==> '0' <= s[i] <= '9'
  }

  /** The integer an optional minus sign and a run of digits denote. */
  function ParseDecimal(s: string): int
    requires IsDecimalText(s)
  {
    if s[0] == '-' then 0 - ParseNat(s[1..]) else ParseNat(s)
  }

  lemma {:induction false} ParseNatString(n: nat)
    ensures ParseNat(NatString(n)) == n
  {
    if n >= 10 {
      var s := NatString(n);
      assert s[..|s| - 1] == NatString(n / 10);
      ParseNatString(n / 10);
    }
  }

  /** `toString` loses nothing: parsing the decimal text of `n` gives back `n`. */
  lemma DecimalRoundTrip(n: int)
    ensures IsDecimalText(DecimalString(n)) && ParseDecimal(DecimalString(n)) == n
  {
    var s := DecimalString(n);
    if n < 0 {
      assert s[1..] == NatString(-n);
      ParseNatString(-n);
    } else {
      ParseNatString(n);
    }
  }
}

=== FILE: user_service.dfy ===
/**
 * `src/services/userService.ts`: look a user up by email, and create a user
 * row storing the password exactly as given.
 */
module UserService {
  import opened Common
  import opened Schema

  /**
   * `getUserByEmail`: the first row with that email, or null. Because the
   * schema makes `email` unique, in a valid store it is the only such row.
   */
  function GetUserByEmail(s: Store, email: string): (r: Option<UserRow>)
    ensures r.None? <==> forall u :: u in s.users ==> u.email != email
    ensures r.Some? ==> r.value in s.users && r.value.email == email
    ensures Valid(s) && r.Some? ==> forall u :: u in s.users && u.email == email ==> u == r.value
  {
    EmailIdentifiesUser(s);
    UserByEmail(s, email)
  }

  /**
   * `createUser`: inserts `(email, name, password)` with no hashing and no
   * duplicate check of its own — a taken email is refused by the store's
   * unique index — then returns the first row with that email, which is the
   * row just inserted.
   */
  function CreateUser(s: Store, email: string, name: string, password: string): (out: Step<UserRow>)
    ensures out.result.Err? <==> EmailTaken(s, email)
    ensures out.result.Err? ==> out.result.error == DuplicateEntry("users.email") && out.store == s
    ensures out.result.Ok? ==>
      var u := out.result.value;
      && u.email == email && u.name == name && u.password == password
      && u.role == DEFAULT_ROLE && u.id == s.nextUserId
      && out.store == s.(users := s.users + [u], nextUserId := s.nextUserId + 1)
      && UserByEmail(out.store, email) == Some(u)
    ensures Valid(s) ==> Valid(out.store)
  {
    match InsertUser(s, email, name, password)
    case Err(e) => Step(Err(e), s)
    case Ok(s') =>
      var u := s'.users[|s.users|];
      assert s'.users == s.users + [u];
      FilterAppend(s.users, [u], (x: UserRow) => x.email == email);
      FilterNone(s.users, (x: UserRow) => x.email == email);
      Step(Ok(u), s')
  }
}
